=== FILE: README.md ===
# Sorts dataset engine — Dafny model

This project models the core of the `sorts` engine of cosmos. A client
registers a dataset (a `SortableResult`, identified by a uuid), loads
documents (multimaps from `Column` to `SValue`), finalizes it, and reads it
back. It can read all of it, read by column value, read in the order of a
declared `Index`, count values per column (`groupResults`), or delete it.
Data lives in a sorted key-value table and per-dataset state lives in a
metadata table.

What the model covers:

- **Data table.** The table is a set of keys `(row, family, qualifier, visibility, value)`.
  Each document gets one primary entry:
  - row `uuid \0 docId`
  - family `SORTS_DOCID`
  - qualifier `f \0 docId`

  Each value `v` of an indexed column `c` gets one entry per `Index` on `c`:
  - row `uuid \0 v`
  - family `c`
  - qualifier `f|r \0 docId`

  Both kinds carry the serialised document as their value (module `Encoding`).
- **Lifecycle.** The metadata table is a map from uuid to state. An absent
  entry reads as UNKNOWN. The lifecycle guard opens every operation
  (modules `Lifecycle` and `Sorting`).
- **Loading and re-indexing.** The insert loop `performAdd`, the re-index
  loop `performUpdate` with its two strategies, and `addIndicesForRecord`
  are modelled as methods with loop invariants. Each is proved equal to
  the declarative key sets (module `Ingest`).
- **Lock retry.** `addResults` and `index` retry the dataset lock. The
  outcome of each acquire is an input (module `LockRetry`).
- **KVToMultimap.** The decoder turns a scanned entry into a placeholder
  document (module `KVToMultimap`).
- **Paging.** The `Paging` options value and its validation (module `Options`).
- **Group-by.** `groupResults` is a run-length fold over the scanned index
  rows (module `GroupBy`).

The serialiser `toValue()` is a function parameter `ser`. Where a property
needs documents read back, a deserialiser `de` is a parameter too, and the
lemma assumes `de(ser(d)) == d`. Lock acquisition results are a `seq<bool>`:
position `i` is the outcome of the `i`-th acquire, and positions past the
end count as timeouts.

`getDocumentPrefix` (SortingImpl.java:568-570) builds every row, index rows
included, as `uuid \0 suffix`. So a prefix scan or a prefix delete on the
uuid covers index entries too (`Properties.DeleteRemovesAllWrites`).

## Model

| member | source | states |
|---|---|---|
| Lifecycle.Guard | src/main/java/sorts/impl/SortingImpl.java:383-387 | The state check accepts exactly when the dataset's state is one of the expected ones. Otherwise it reports the expected set and the actual state. |
| Sorting.Register | src/main/java/sorts/impl/SortingImpl.java:117-129 | Succeeds iff the dataset is UNKNOWN, and then it becomes LOADING. Otherwise it throws with the actual state and changes nothing. Data, columns and other datasets are untouched. |
| Sorting.Finalize | src/main/java/sorts/impl/SortingImpl.java:243-253 | Succeeds iff the dataset is LOADING, and then it becomes LOADED. Otherwise it throws and changes nothing. |
| Sorting.AddResults | src/main/java/sorts/impl/SortingImpl.java:144-176 | Accepted only in LOADING. With the lock held (or without lockOnUpdates) it adds exactly the primary and index entries of the documents and records their columns. If no acquire succeeds, it returns silently with nothing written. States never change. |
| Sorting.IndexDataset | src/main/java/sorts/impl/SortingImpl.java:261-292 | Intended `index`. In LOADING or LOADED, with the lock, the requested Indexes join the descriptor and every stored document gains its index entries. A failed lock throws LockNotAcquired with count 4 and changes nothing. |
| Sorting.IndexDatasetAsWritten | src/main/java/sorts/impl/SortingImpl.java:288-292 | `index` as written. Re-indexes the decoded placeholders. Without lockOnUpdates it falls through to the lock error after re-indexing. |
| Sorting.Columns | src/main/java/sorts/impl/SortingImpl.java:383-389 | Readable only in LOADING or LOADED, otherwise the state error. It returns the columns recorded for the dataset. |
| Sorting.Fetch | src/main/java/sorts/impl/SortingImpl.java:396-406 | Readable only in LOADING or LOADED. Returns exactly the stored primary-family entries under the dataset's row prefix. |
| Sorting.FetchByValue | src/main/java/sorts/impl/SortingImpl.java:425-435 | Returns exactly the stored entries whose row is `uuid \0 value` and whose family is the column. |
| Sorting.FetchIndex | src/main/java/sorts/impl/SortingImpl.java:455-486 | State error first. Then UnindexedColumn iff the ordering is not among the descriptor's Indexes. Otherwise it scans the column family under the prefix, deduplicating iff duplicates are not allowed. |
| Sorting.FetchIndexDefault | src/main/java/sorts/impl/SortingImpl.java:449-452 | The two-argument overload keeps duplicates. It has the same errors as the three-argument form: the state error outside LOADING or LOADED, then UnindexedColumn for an ordering the descriptor lacks. On success it returns exactly the stored entries under the prefix in the ordering's column family. |
| Sorting.GroupResults | src/main/java/sorts/impl/SortingImpl.java:504-521 | Readable only in LOADING or LOADED, and needs no Index on the column. The counts are positive and sum to the number of selected entries. |
| Sorting.Delete | src/main/java/sorts/impl/SortingImpl.java:538-565 | In LOADING or LOADED it first marks DELETING. It then removes exactly the keys under the uuid prefix and removes the metadata, so the dataset reads UNKNOWN. Its column-presence entries are cleared. Other datasets' states and columns are kept. Otherwise it throws and changes nothing. |
| Sorting.Selected | src/main/java/sorts/impl/SortingImpl.java:514-516 | The group-by scan keeps exactly the entries under the prefix in the column's family. Each kept entry occurs as often as in the scan, and the kept entries stay in scan order (a subsequence). |
| Encoding.AddedKeysMembership | src/main/java/sorts/impl/SortingImpl.java:192-212 | A key is written by an insert iff it is the primary entry or an index entry of some inserted document. |
| Encoding.IndexKeysOnlyIndexedColumns | src/main/java/sorts/impl/SortingImpl.java:203-208 | Every index entry is in the family of a requested Index on a column the document holds. It is under `uuid \0`, and it carries the document's visibility and serialised form. |
| Encoding.UnindexedColumnNoKeys | src/main/java/sorts/impl/SortingImpl.java:203 | A column that no Index covers gets no index entry. |
| Encoding.RowInjective | src/main/java/sorts/impl/SortingImpl.java:568-570 | Two rows of the same dataset are equal iff their suffixes are. |
| Encoding.QualifierInjective | src/main/java/sorts/impl/SortingImpl.java:207-208 | A one-character direction plus NUL plus docId determines both direction and docId. |
| Encoding.IndexKeyInjective | src/main/java/sorts/impl/SortingImpl.java:205-208 | Index entries of one document coincide iff value, column and direction agree. |
| Encoding.IndexRowOrder | src/main/java/sorts/impl/SortingImpl.java:205 | Index rows of one dataset sort as their values do. |
| Encoding.AddedKeysCarryPrefix | src/main/java/sorts/impl/SortingImpl.java:568-577 | Every row an insert writes starts with `uuid \0`. |
| Encoding.KeysForColumnsCover | src/main/java/sorts/impl/SortingImpl.java:317-327 | Iterating any superset of the indexed columns the document holds produces exactly the document's index entries. |
| Ingest.AddIndicesForRecord | src/main/java/sorts/impl/SortingImpl.java:364-377 | The nested loop writes one entry per value and Index, exactly the declarative set. |
| Ingest.AddDocumentEntries | src/main/java/sorts/impl/SortingImpl.java:193-213 | The per-document loop writes the primary entry plus exactly the document's index entries. It records exactly the columns holding a value. |
| Ingest.PerformAdd | src/main/java/sorts/impl/SortingImpl.java:179-216 | The loop over documents writes exactly the insert's key set and the union of their columns. |
| Ingest.ReindexByRequest | src/main/java/sorts/impl/SortingImpl.java:315-327 | The requested-column strategy writes exactly the document's index entries for the request. |
| Ingest.ReindexByEntries | src/main/java/sorts/impl/SortingImpl.java:328-340 | The document-entries strategy writes the same set. |
| Ingest.ReindexDoc | src/main/java/sorts/impl/SortingImpl.java:313-341 | Whichever strategy the cost test picks, the result is the document's index entries. |
| Ingest.PerformUpdate | src/main/java/sorts/impl/SortingImpl.java:295-351 | The descriptor gains the requested Indexes, and the loop writes exactly the re-index key set of the documents. |
| LockRetry.Run | src/main/java/sorts/impl/SortingImpl.java:156-176 | Without lockOnUpdates the work runs once with count 1. With it, the work runs iff one of the first three acquires succeeds, and failure leaves count 4. |
| LockRetry.RetryLock | src/main/java/sorts/impl/SortingImpl.java:269-287 | The loop runs the work at most once, and exactly when it got the lock. The count is the number of the first successful acquire, or 4. It agrees with `Run`. |
| KVToMultimap.Apply | src/main/java/sorts/impl/KVToMultimap.java:39-60 | Fails with the key iff the qualifier has no NUL. Otherwise the docId is what follows the first NUL, the visibility is the key's, and the only column is ATALL holding the entry's value. |
| KVToMultimap.QualifierRoundTrip | src/main/java/sorts/impl/KVToMultimap.java:44-54 | Decoding a qualifier the engine wrote gives back its docId. |
| KVToMultimap.PrimaryKeyDecodes | src/main/java/sorts/impl/SortingImpl.java:572-580 | A primary entry decodes to the document's id and visibility, with its serialised form under ATALL. |
| KVToMultimap.IndexKeyDecodes | src/main/java/sorts/impl/SortingImpl.java:205-208 | An index entry decodes to the id of the document it indexes. |
| Strings.FindNul | src/main/java/sorts/impl/KVToMultimap.java:46-50 | Finds the first NUL of a string, and finds none iff there is none. |
| Strings.PrefixIsolation | src/main/java/sorts/impl/SortingImpl.java:554 | A row of dataset `u2` is outside the prefix range of a prefix-free `u1`. |
| IndexHelper.ShouldIndexAgrees | src/main/java/sorts/impl/SortingImpl.java:203-204 | "Should index" holds iff the column is among the Indexes' columns, iff some Index covers it. |
| Options.NewPaging | core/src/main/java/cosmos/options/Paging.java:28-37 | A null argument fails first. Otherwise it succeeds iff both limits are positive, and the accessors return them. |
| Options.Create | core/src/main/java/cosmos/options/Paging.java:53-55 | Same acceptance, errors and result as the constructor: NullArgument for a missing limit, IllegalArgument for a non-positive one. |
| Options.PagingRoundTrip | core/src/main/java/cosmos/options/Paging.java:42-51 | Rebuilding a Paging from its accessors succeeds iff both are positive, and then returns the same Paging. |
| GroupBy.RunLength | src/main/java/sorts/impl/SortingImpl.java:518-521 | The fold's counts are positive and sum to the number of values. Adjacent groups differ, and the group values are exactly the scanned values. |
| GroupBy.RunLengthExpands | src/main/java/sorts/impl/SortingImpl.java:518-521 | The groups are a run-length encoding of the scanned values: repeating each value `count` times, in order, gives the scan back. With the positive counts and differing neighbours of `GroupBy.RunLength`, this makes each group a maximal run of equal adjacent values. |
| GroupBy.RunLengthCounts | src/main/java/sorts/impl/SortingImpl.java:518-521 | On grouped input, each value appears in exactly one group, whose count is its number of occurrences. |
| Properties.LifecycleFollowsEdges | src/main/java/sorts/impl/SortingImpl.java:114-565 | Every operation leaves the state unchanged or moves it along one lifecycle edge. Delete moves through DELETING. |
| Properties.LoadThenFetch | src/main/java/sorts/impl/SortingImpl.java:114-216 | After register and addResults on an empty dataset, `fetch` returns exactly the primary entries of the inserted documents. This needs only that no document holds a value in an indexed column named SORTS_DOCID, whose index entries would share the primary family. An Index on SORTS_DOCID by itself, as docId-ordered reads use, is allowed. |
| Properties.FetchedEntriesDecode | src/main/java/sorts/impl/SortingImpl.java:406 | Every fetched primary entry decodes to an inserted document's id and visibility. |
| Properties.FetchByValueAfterLoad | src/main/java/sorts/impl/SortingImpl.java:425-435 | After a load, a value fetch on any column returns exactly the index entries of that column and value. For the column named SORTS_DOCID it also returns the primary entry of each document whose docId is the value. |
| Properties.FetchIndexAfterLoad | src/main/java/sorts/impl/SortingImpl.java:455-486 | After a load, an index fetch for an Index the descriptor holds succeeds. It returns exactly the index entries written for every value of the ordering's column, under each Index on that column. For an ordering on SORTS_DOCID (the docId-ordered read at src/main/java/sorts/MediawikiQueries.java:218) it also returns every primary entry. Each entry decodes to the id of an inserted document. |
| Properties.WrittenRowsCarryPrefix | src/main/java/sorts/impl/SortingImpl.java:568-570 | Inserts and re-indexes only write rows under `uuid \0`. |
| Properties.DeleteRemovesAllWrites | src/main/java/sorts/impl/SortingImpl.java:550-565 | No entry an insert or re-index wrote survives a delete, and the dataset reads UNKNOWN. |
| Properties.DeleteKeepsOtherDatasets | src/main/java/sorts/impl/SortingImpl.java:554 | A delete keeps every entry of a dataset whose uuid is prefix-free with the deleted one. |
| Properties.PrefixOverlapExample | src/main/java/sorts/impl/SortingImpl.java:554 | Without prefix-freedom the ranges overlap: a row of "ab" lies in the prefix range of "a". |
| Properties.DeleteThenRegister | src/main/java/sorts/impl/SortingImpl.java:538-565 | After a delete, register succeeds again and the dataset has no entries and no columns. |
| Properties.ColumnsInMembership | src/main/java/sorts/impl/SortingImpl.java:196-201 | The columns an insert records are exactly the columns some document holds a value in. |
| Properties.AddedKeysSplit | src/main/java/sorts/impl/SortingImpl.java:184-212 | Inserting with `ixs + req` writes what inserting with `ixs` plus re-indexing with `req` write. |
| Properties.StoredDocsAfterLoad | src/main/java/sorts/impl/SortingImpl.java:306 | The corrected read behind `Properties.ReindexMatchesInsertTime`. The code's `fetch(id)` there yields `KVToMultimap` placeholders instead (Finding 1). Read back with an inverse of the serialiser, the stored primary entries give exactly the inserted documents. |
| Properties.ReindexMatchesInsertTime | src/main/java/sorts/impl/SortingImpl.java:302-303 | Loading and then indexing `req` leaves exactly the data an insert with `req` configured from the start would. |
| Properties.IndexIdempotent | src/main/java/sorts/impl/SortingImpl.java:257-341 | A second `index` with the same Indexes writes nothing and leaves the descriptor as it was. This needs only that no requested Index is on a SORTS_DOCID column in which a stored document holds a value. Such entries would land in the primary family and be read back as documents by the second call. |
| Properties.ReindexAsWrittenMissesColumns | src/main/java/sorts/impl/SortingImpl.java:306-341 | As written, indexing COLOR on a loaded document with COLOR = Blue writes no COLOR entry, though an insert would. |
| Properties.PlaceholderReindexOnlyAtall | src/main/java/sorts/impl/SortingImpl.java:313-341 | Re-indexing documents decoded by `KVToMultimap` writes only ATALL-family entries, and only if an Index on ATALL was requested. |
| Properties.ReindexAsWrittenOnlyAtall | src/main/java/sorts/impl/SortingImpl.java:261-341 | As written, every entry `index` adds is in the ATALL family, whatever Indexes were requested. |
| Properties.UnlockedIndexAsWrittenThrows | src/main/java/sorts/impl/SortingImpl.java:288-292 | As written, `index` without lockOnUpdates re-indexes and then throws the lock error with count 1. |
| Properties.UnlockedIndexSucceeds | src/main/java/sorts/impl/SortingImpl.java:288-290 | The intended `index` without lockOnUpdates returns normally. |
| Properties.GroupByIgnoresIndexes | src/main/java/sorts/impl/SortingImpl.java:500-521 | `groupResults` runs on an unindexed column, where the index fetch refuses with UnindexedColumn. |
| Properties.SortedIsGrouped | src/main/java/sorts/impl/SortingImpl.java:514-519 | Values in row order come grouped. |
| Properties.GroupResultsCountStored | src/main/java/sorts/impl/SortingImpl.java:504-521 | When the scan visits each stored entry of the column under the prefix once, the counts sum to the number of those entries, and the groups are exactly their row values. |
| Properties.GroupResultsCountOccurrences | src/main/java/sorts/impl/SortingImpl.java:500-521 | On a scan in row order there is one pair per distinct value, counting its occurrences. |
| Properties.ScenarioScanInKeyOrder | core/src/test/java/cosmos/results/integration/GroupByIntegrationTest.java:186-220 | The scenario's scans list their entries in the table's order, by row and then by qualifier. |
| Properties.GroupByScenario | core/src/test/java/cosmos/results/integration/GroupByIntegrationTest.java:186-220 | For three documents (all MD; Blue, Pink, Blue), the scans visit each stored STATE and COLOR entry exactly once. STATE groups to {MD: 3} and COLOR to {Blue: 2, Pink: 1}. |

## Left out

- I/O is not modelled. This covers ZooKeeper/Curator, batch writers and scanners, `close()` and `finalize()`, and the log calls. The store is a pure value.
- The `checkNotNull` guards of `SortingImpl` are not modelled, since Dafny values are never null. The Paging constructor's null checks are modelled, with `Option`.
- `addResult` (singular) is not modelled separately; it only wraps one result for `addResults`.
- The paged overloads (`PagedQueryResult`) are not modelled beyond `Paging` validation. The paging iterator is not part of this model.
- Deduplication in `fetch(id, ordering, false)` is reduced to a flag. `DedupingPredicate` is not part of this model.
- The `groupResults` server-side iterator (`GroupByRowSuffixIterator`) is not part of this model. The scan it sees is an input sequence, and the grouping is a run-length fold over it.
- Sorting.GroupResults does not tie its scan to the store. `Properties.GroupResultsCountStored` states the counts for a scan that visits each stored entry of the column once.
- Sorting.GroupResults keeps only the value's payload in each `Group`. `GroupByFunction` (SortingImpl.java:521) builds an `SValue` that also carries a visibility, and the group-by integration test compares against it (GroupByIntegrationTest.java:187). That visibility is not modelled.
- The visibility labels are carried but not evaluated, because authorizations are not modelled. Every scan and the delete behave as if `id.auths()` could see every label (SortingImpl.java:402, 553).
- Properties.DeleteRemovesAllWrites assumes the deleter sees every label. In the source, entries the caller's authorizations cannot see survive the `BatchDeleter`.
- Text decoding (UTF-8) of the docId is not modelled: strings are sequences of characters.
- Sorting.IndexDatasetAsWritten: if a decode fails mid-scan, the model writes nothing. The code may already have written some entries before the exception. Batch-writer partial flushes are not modelled.
- Model.Key: a cell's identity includes its value. The table keeps one value per row, family, qualifier and visibility, the newest. So two documents with the same docId and visibility but different content leave two primary cells here and one in the table.
- Properties.LoadThenFetch, Properties.StoredDocsAfterLoad and Properties.ReindexMatchesInsertTime: hold for the model's store. When docIds repeat within a load, the table keeps fewer cells than they state. DocIds are meant to be unique within a dataset, but nothing in the code enforces it.
- Sets model the data table, so writing the same mutation twice is invisible. The order in which the data table stores keys is modelled only through `Strings.LexLt` on rows.
- Ingest.PerformUpdate takes the documents to re-index as a parameter, and `Sorting.IndexDataset` does not call it. The two meet only in the shared `Encoding.ReindexKeys` definition. `IndexDataset` computes its documents by reading the primary entries back through the deserialiser.
- Sorting.Delete removes the dataset's column-presence entries along with its state. This assumes `SortingMetadata.remove` (SortingImpl.java:565) clears both; `SortingMetadata` is not part of this model. `Properties.DeleteThenRegister`'s "no columns" depends on it.
- Sorting.Fetch returns the raw primary entries before the `KVToMultimap` transform (SortingImpl.java:406). The transform, and the decode error it can throw lazily while iterating, are modelled by `KVToMultimap.Apply` separately.
- Sorting.FetchByValue returns the raw index entries before the `KVToMultimap` transform (SortingImpl.java:435). The lazy MissingSeparator error of that transform is not part of its result. `Properties.FetchByValueAfterLoad` and `KVToMultimap.IndexKeyDecodes` show the entries the engine writes never raise it.
- Sorting.FetchIndex and Sorting.FetchIndexDefault return the raw index entries and a dedup flag before the `KVToMultimap` transform and the `DedupingPredicate` filter (SortingImpl.java:482-484). Neither the lazy MissingSeparator error nor the filter's choice of which repeated docId survives is modelled. `Properties.FetchIndexAfterLoad` proves every entry a load writes decodes without error.
- IndexHelper.ColumnsOf, IndexHelper.ShouldIndex, IndexHelper.IndicesForColumn and IndexHelper.ColumnCount treat `columnIndices().keySet()`, `shouldIndex`, `indicesForColumn` and `columnCount` as plain set logic over the Indexes, in that order. `Ingest.ReindexDoc` likewise takes `MultimapQueryResult.columnSize()` (SortingImpl.java:315) to be `|Model.DocColumns(d)|`, the number of distinct columns. Neither `IndexHelper` nor `MultimapQueryResult` is part of this model.
- The family of an index entry is `index.column().toString()` (SortingImpl.java:208, 372). The fetches filter on `column.column()` (SortingImpl.java:433, 476). The model assumes both give the column's name.
- Sorting.AddResults records columns by set union. The code adds one column mutation per document (SortingImpl.java:194-215). For a document with no values that mutation is empty. The Accumulo batch writer rejects empty mutations, so `addResults` would throw after flushing the primary entries already queued. The model writes everything and returns normally.
- `Sorting.java` and the `MediawikiQueries` drivers are callers and are not modelled.

## Findings

| source | as written | input that shows it | evidently intended | confidence | as-written member | corrected member |
|---|---|---|---|---|---|---|
| src/main/java/sorts/impl/SortingImpl.java:306-341 | `performUpdate` re-indexes the results of `fetch(id)`. Those results are `KVToMultimap` placeholders whose only column is ATALL, so no real column is ever found and nothing is indexed retroactively. | A dataset holding one document with COLOR = Blue; then `index` with Index(COLOR, ascending). | The stored documents gain the index entries an insert with that Index would have written. | not executed | Properties.ReindexAsWrittenMissesColumns | Properties.ReindexMatchesInsertTime |
| src/main/java/sorts/impl/SortingImpl.java:288-292 | Without lockOnUpdates, `index` calls `performUpdate` and then falls through to the `IllegalStateException` of line 292. | Any readable dataset with `lockOnUpdates` false. | Return normally after the unlocked update, as `addResults` does. | not executed | Properties.UnlockedIndexAsWrittenThrows | Properties.UnlockedIndexSucceeds |

=== FILE: encoding.dfy ===
/**
 * The key encoding of `SortingImpl`: the primary entry of a document, its
 * secondary-index entries, and the key sets an insert or a re-index writes.
 */
module Encoding {
  import opened Model
  import opened Strings
  import opened IndexHelper

  /** Row of every data-table entry of dataset `uuid` (`getDocumentPrefix`). */
  function Row(uuid: string, suffix: string): string {
    uuid + [NUL] + suffix
  }

  /** Qualifier marker of an index direction. */
  function Direction(o: Order): string {
    if o == Ascending then FORWARD else REVERSE
  }

  /** Column qualifier `dir \0 docId`. */
  function Qualifier(dir: string, docId: string): string {
    dir + [NUL] + docId
  }

  /** The primary entry of document `d` (`addDocument`). */
  function PrimaryKey(uuid: string, d: Doc, ser: Doc -> string): Key {
    Key(Row(uuid, d.docId), DOCID_FIELD, Qualifier(FORWARD, d.docId), d.vis, ser(d))
  }

  /** The index entry of value `v` of document `d` under Index `ix`. */
  function IndexKey(uuid: string, d: Doc, v: SValue, ix: Index, ser: Doc -> string): Key {
    Key(Row(uuid, v.payload), ix.column.name, Qualifier(Direction(ix.order), d.docId), d.vis, ser(d))
  }

  /** The keys `addIndicesForRecord` writes: one per value and Index. */
  function RecordIndexKeys(uuid: string, d: Doc, indices: set<Index>, values: set<SValue>,
                           ser: Doc -> string): set<Key>
  {
    set v, ix | v in values && ix in indices :: IndexKey(uuid, d, v, ix, ser)
  }

  /** The index keys of `d` for the Indexes of `ixs` whose column is in `cols`. */
  function KeysForColumns(uuid: string, d: Doc, ixs: set<Index>, cols: set<Column>,
                          ser: Doc -> string): set<Key>
  {
    set ix, v | ix in ixs && ix.column in cols && ix.column in d.values && v in d.values[ix.column]
      :: IndexKey(uuid, d, v, ix, ser)
  }

  /**
   * Reference definition of a document's index keys under `ixs`: one key for
   * every value of every column and every Index on that column.
   */
  function IndexKeys(uuid: string, d: Doc, ixs: set<Index>, ser: Doc -> string): set<Key> {
    KeysForColumns(uuid, d, ixs, d.values.Keys, ser)
  }

  /** Everything an insert writes to the data table for one document. */
  function DocKeys(uuid: string, ixs: set<Index>, d: Doc, ser: Doc -> string): set<Key> {
    {PrimaryKey(uuid, d, ser)} + IndexKeys(uuid, d, ixs, ser)
  }

  /** Everything an insert of `docs` writes to the data table. */
  function AddedKeys(uuid: string, ixs: set<Index>, docs: seq<Doc>, ser: Doc -> string): set<Key>
  {
    if |docs| == 0 then {} else AddedKeys(uuid, ixs, docs[..|docs| - 1], ser) + DocKeys(uuid, ixs, docs[|docs| - 1], ser)
  }

  /** The columns an insert of `docs` records as present. */
  function ColumnsIn(docs: seq<Doc>): set<Column> {
    if |docs| == 0 then {} else ColumnsIn(docs[..|docs| - 1]) + DocColumns(docs[|docs| - 1])
  }

  /** Index keys of each document in a set, united. */
  function ReindexKeys(uuid: string, docs: set<Doc>, req: set<Index>, ser: Doc -> string): set<Key> {
    set d, k | d in docs && k in IndexKeys(uuid, d, req, ser) :: k
  }

  /** Extending the column set by `c` adds exactly the keys of `c`'s values. */
  lemma KeysForColumnsStep(uuid: string, d: Doc, ixs: set<Index>, cols: set<Column>, c: Column,
                           ser: Doc -> string)
    ensures c in d.values ==>
      KeysForColumns(uuid, d, ixs, cols + {c}, ser) ==
      KeysForColumns(uuid, d, ixs, cols, ser) + RecordIndexKeys(uuid, d, IndicesForColumn(ixs, c), d.values[c], ser)
    ensures c !in d.values || !ShouldIndex(ixs, c) || d.values[c] == {} ==>
      KeysForColumns(uuid, d, ixs, cols + {c}, ser) == KeysForColumns(uuid, d, ixs, cols, ser)
  {
  }

  /** Only the indexed columns the document holds values for matter. */
  lemma KeysForColumnsCover(uuid: string, d: Doc, ixs: set<Index>, cols: set<Column>, ser: Doc -> string)
    requires forall c :: c in DocColumns(d) && ShouldIndex(ixs, c) ==> c in cols
    ensures KeysForColumns(uuid, d, ixs, cols, ser) == IndexKeys(uuid, d, ixs, ser)
  {
    forall k | k in IndexKeys(uuid, d, ixs, ser)
      ensures k in KeysForColumns(uuid, d, ixs, cols, ser)
    {
      var ix, v :| ix in ixs && ix.column in d.values.Keys && ix.column in d.values && v in d.values[ix.column]
        && k == IndexKey(uuid, d, v, ix, ser);
      assert ix.column in DocColumns(d);
    }
  }

  // ---------------------------------------------------------------------
  // Properties of the encoding
  // ---------------------------------------------------------------------

  /** A key of `AddedKeys` is a primary or an index key of one of the documents. */
  lemma {:induction false} AddedKeysMembership(uuid: string, ixs: set<Index>, docs: seq<Doc>,
                                               ser: Doc -> string, k: Key)
    ensures k in AddedKeys(uuid, ixs, docs, ser) <==>
            exists i :: 0 <= i < |docs| && k in DocKeys(uuid, ixs, docs[i], ser)
    decreases |docs|
  {
    if |docs| > 0 {
      var init := docs[..|docs| - 1];
      AddedKeysMembership(uuid, ixs, init, ser, k);
      if k in AddedKeys(uuid, ixs, init, ser) {
        var i :| 0 <= i < |init| && k in DocKeys(uuid, ixs, init[i], ser);
        assert docs[i] == init[i];
      }
      if exists i :: 0 <= i < |docs| && k in DocKeys(uuid, ixs, docs[i], ser) {
        var i :| 0 <= i < |docs| && k in DocKeys(uuid, ixs, docs[i], ser);
        if i < |docs| - 1 {
          assert init[i] == docs[i];
        }
      }
    }
  }

  /** Every index key sits in a column family some Index of `ixs` names. */
  lemma IndexKeysOnlyIndexedColumns(uuid: string, d: Doc, ixs: set<Index>, ser: Doc -> string, k: Key)
    requires k in IndexKeys(uuid, d, ixs, ser)
    ensures exists ix :: ix in ixs && ix.column.name == k.cf && ix.column in d.values
    ensures HasPrefix(k.row, uuid + [NUL])
    ensures k.vis == d.vis && k.value == ser(d)
  {
    var ix, v :| ix in ixs && ix.column in d.values.Keys && ix.column in d.values && v in d.values[ix.column]
      && k == IndexKey(uuid, d, v, ix, ser);
    PrefixOfConcat(uuid + [NUL], v.payload);
  }

  /** A column without an Index gets no index key. */
  lemma UnindexedColumnNoKeys(uuid: string, d: Doc, ixs: set<Index>, ser: Doc -> string, c: Column)
    requires !ShouldIndex(ixs, c)
    ensures forall k :: k in IndexKeys(uuid, d, ixs, ser) ==> k.cf != c.name
  {
    forall k | k in IndexKeys(uuid, d, ixs, ser)
      ensures k.cf != c.name
    {
      IndexKeysOnlyIndexedColumns(uuid, d, ixs, ser, k);
    }
  }

  /** Rows of one dataset are equal exactly when their suffixes are. */
  lemma RowInjective(uuid: string, a: string, b: string)
    ensures Row(uuid, a) == Row(uuid, b) <==> a == b
  {
    if Row(uuid, a) == Row(uuid, b) {
      assert a == Row(uuid, a)[|uuid| + 1..];
      assert b == Row(uuid, b)[|uuid| + 1..];
    }
  }

  /** Qualifiers with a NUL-free marker are equal exactly when both parts are. */
  lemma QualifierInjective(d1: string, id1: string, d2: string, id2: string)
    requires |d1| == 1 && |d2| == 1
    ensures Qualifier(d1, id1) == Qualifier(d2, id2) <==> d1 == d2 && id1 == id2
  {
    if Qualifier(d1, id1) == Qualifier(d2, id2) {
      assert d1 == Qualifier(d1, id1)[..1];
      assert d2 == Qualifier(d2, id2)[..1];
      assert id1 == Qualifier(d1, id1)[2..];
      assert id2 == Qualifier(d2, id2)[2..];
    }
  }

  /**
   * Exactly one index key per (payload, Index): two index keys of a document
   * coincide only when their payloads and their Indexes do.
   */
  lemma IndexKeyInjective(uuid: string, d: Doc, v1: SValue, ix1: Index, v2: SValue, ix2: Index,
                          ser: Doc -> string)
    ensures IndexKey(uuid, d, v1, ix1, ser) == IndexKey(uuid, d, v2, ix2, ser) <==>
            v1.payload == v2.payload && ix1 == ix2
  {
    RowInjective(uuid, v1.payload, v2.payload);
    QualifierInjective(Direction(ix1.order), d.docId, Direction(ix2.order), d.docId);
  }

  /** Every row an insert writes starts with `uuid \0`. */
  lemma AddedKeysCarryPrefix(uuid: string, ixs: set<Index>, docs: seq<Doc>, ser: Doc -> string, k: Key)
    requires k in AddedKeys(uuid, ixs, docs, ser)
    ensures HasPrefix(k.row, uuid + [NUL])
  {
    AddedKeysMembership(uuid, ixs, docs, ser, k);
    var i :| 0 <= i < |docs| && k in DocKeys(uuid, ixs, docs[i], ser);
    if k == PrimaryKey(uuid, docs[i], ser) {
      PrefixOfConcat(uuid + [NUL], docs[i].docId);
    } else {
      IndexKeysOnlyIndexedColumns(uuid, docs[i], ixs, ser, k);
    }
  }

  /** For one dataset, index rows compare exactly as their values do. */
  lemma IndexRowOrder(uuid: string, d1: Doc, v1: SValue, ix1: Index, d2: Doc, v2: SValue, ix2: Index,
                      ser: Doc -> string)
    ensures LexLt(IndexKey(uuid, d1, v1, ix1, ser).row, IndexKey(uuid, d2, v2, ix2, ser).row) <==>
            LexLt(v1.payload, v2.payload)
  {
    LexLtCommonPrefix(uuid + [NUL], v1.payload, v2.payload);
  }
}

=== FILE: group_by.dfy ===
/**
 * The run-length count `groupResults` pushes into the scan: consecutive
 * equal values of the scanned index rows collapse into one (value, count)
 * pair.
 */
module GroupBy {

  /** One output pair of `groupResults`. */
  datatype Group = Group(value: string, count: nat)

  /** Sum of the counts. */
  function Total(gs: seq<Group>): nat {
    if |gs| == 0 then 0 else gs[0].count + Total(gs[1..])
  }

  /** Equal values are adjacent, as they are in a sorted scan. */
  predicate Grouped(vals: seq<string>) {
    forall i, j, k :: 0 <= i < j < k < |vals| && vals[i] == vals[k] ==> vals[j] == vals[i]
  }

  /**
   * Fold a stream into runs: counts are positive and add up to the stream's
   * length, neighbouring runs differ, and the runs hold exactly the values seen.
   */
  function RunLength(vals: seq<string>): (r: seq<Group>)
    ensures |r| == 0 <==> |vals| == 0
    ensures |r| > 0 ==> r[0].value == vals[0]
    ensures Total(r) == |vals|
    ensures forall i :: 0 <= i < |r| ==> r[i].count > 0
    ensures forall i :: 0 <= i < |r| - 1 ==> r[i].value != r[i + 1].value
    ensures forall v :: v in vals <==> exists i :: 0 <= i < |r| && r[i].value == v
  {
    if |vals| == 0 then []
    else
      var rest := RunLength(vals[1..]);
      if |rest| > 0 && rest[0].value == vals[0] then
        var r := [Group(vals[0], rest[0].count + 1)] + rest[1..];
        assert forall v :: v in vals <==> v == vals[0] || v in vals[1..];
        assert forall i :: 1 <= i < |r| ==> r[i] == rest[i];
        r
      else
        var r := [Group(vals[0], 1)] + rest;
        assert forall v :: v in vals <==> v == vals[0] || v in vals[1..];
        assert forall i :: 1 <= i < |r| ==> r[i] == rest[i - 1];
        r
  }

  /** `n` copies of `v`. */
  function Repeat(v: string, n: nat): (r: seq<string>)
    ensures |r| == n
    ensures forall i :: 0 <= i < n ==> r[i] == v
  {
    if n == 0 then [] else [v] + Repeat(v, n - 1)
  }

  /** The stream a sequence of runs stands for: each value repeated `count` times, in order. */
  function Expand(gs: seq<Group>): seq<string> {
    if |gs| == 0 then [] else Repeat(gs[0].value, gs[0].count) + Expand(gs[1..])
  }

  /**
   * The runs are a run-length encoding of the stream: expanding them gives
   * the stream back. With positive counts and differing neighbours this
   * pins the runs down as the maximal blocks of equal adjacent values.
   */
  lemma {:induction false} RunLengthExpands(vals: seq<string>)
    ensures Expand(RunLength(vals)) == vals
    decreases |vals|
  {
    if |vals| > 0 {
      var v := vals[0];
      var rest := RunLength(vals[1..]);
      var r := RunLength(vals);
      RunLengthExpands(vals[1..]);
      if |rest| > 0 && rest[0].value == v {
        assert r[0] == Group(v, rest[0].count + 1) && r[1..] == rest[1..];
        assert Repeat(v, rest[0].count + 1) == [v] + Repeat(v, rest[0].count);
        assert Expand(rest) == Repeat(v, rest[0].count) + Expand(rest[1..]);
        assert Expand(r) == [v] + Expand(rest);
      } else {
        assert r[0] == Group(v, 1) && r[1..] == rest;
        assert Repeat(v, 1) == [v];
      }
      assert vals == [v] + vals[1..];
    }
  }

  /** No value forms two runs. */
  predicate DistinctRuns(r: seq<Group>) {
    forall i, j :: 0 <= i < j < |r| ==> r[i].value != r[j].value
  }

  /** Every run counts all occurrences of its value. */
  predicate CountsMatch(r: seq<Group>, vals: seq<string>) {
    forall i :: 0 <= i < |r| ==> r[i].count == multiset(vals)[r[i].value]
  }

  lemma GroupedTail(vals: seq<string>)
    requires |vals| > 0 && Grouped(vals)
    ensures Grouped(vals[1..])
  {
    var tail := vals[1..];
    forall i, j, k | 0 <= i < j < k < |tail| && tail[i] == tail[k]
      ensures tail[j] == tail[i]
    {
      assert vals[i + 1] == vals[k + 1];
    }
  }

  /** In a grouped stream whose second value differs, the first never recurs. */
  lemma HeadNotInTail(vals: seq<string>)
    requires |vals| > 0 && Grouped(vals)
    requires |vals| == 1 || vals[1] != vals[0]
    ensures vals[0] !in vals[1..]
  {
    forall k | 1 <= k < |vals|
      ensures vals[k] != vals[0]
    {
      if k > 1 {
        var first, second, later := vals[0], vals[1], vals[k];
        assert first == later ==> second == first;
      }
    }
  }

  /** The head joins the first run of the tail. */
  lemma MergeRun(vals: seq<string>, rest: seq<Group>, r: seq<Group>)
    requires |vals| > 0 && |rest| > 0 && rest[0].value == vals[0]
    requires DistinctRuns(rest) && CountsMatch(rest, vals[1..])
    requires r == [Group(vals[0], rest[0].count + 1)] + rest[1..]
    ensures DistinctRuns(r) && CountsMatch(r, vals)
  {
    assert vals == [vals[0]] + vals[1..];
    assert multiset(vals) == multiset{vals[0]} + multiset(vals[1..]);
    forall i | 0 <= i < |r|
      ensures r[i].count == multiset(vals)[r[i].value]
    {
      if i > 0 {
        assert r[i] == rest[i];
        assert rest[0].value != rest[i].value;
      }
    }
    forall i, j | 0 <= i < j < |r|
      ensures r[i].value != r[j].value
    {
      assert r[j] == rest[j];
      if i > 0 {
        assert r[i] == rest[i];
      }
    }
  }

  /** The head starts a run of its own. */
  lemma NewRun(vals: seq<string>, rest: seq<Group>, r: seq<Group>)
    requires |vals| > 0 && vals[0] !in vals[1..]
    requires forall i :: 0 <= i < |rest| ==> rest[i].value in vals[1..]
    requires DistinctRuns(rest) && CountsMatch(rest, vals[1..])
    requires r == [Group(vals[0], 1)] + rest
    ensures DistinctRuns(r) && CountsMatch(r, vals)
  {
    assert vals == [vals[0]] + vals[1..];
    assert multiset(vals) == multiset{vals[0]} + multiset(vals[1..]);
    forall i | 0 <= i < |r|
      ensures r[i].count == multiset(vals)[r[i].value]
    {
      if i > 0 {
        assert r[i] == rest[i - 1];
      }
    }
    forall i, j | 0 <= i < j < |r|
      ensures r[i].value != r[j].value
    {
      assert r[j] == rest[j - 1];
      if i > 0 {
        assert r[i] == rest[i - 1];
      }
    }
  }

  /**
   * On a grouped stream (a sorted scan) every value forms a single run, and
   * its count is the number of times it occurs.
   */
  lemma {:induction false} RunLengthCounts(vals: seq<string>)
    requires Grouped(vals)
    ensures DistinctRuns(RunLength(vals))
    ensures CountsMatch(RunLength(vals), vals)
    decreases |vals|
  {
    if |vals| > 0 {
      var tail := vals[1..];
      GroupedTail(vals);
      RunLengthCounts(tail);
      var rest := RunLength(tail);
      if |rest| > 0 && rest[0].value == vals[0] {
        MergeRun(vals, rest, RunLength(vals));
      } else {
        if |vals| > 1 {
          assert rest[0].value == tail[0];
        }
        HeadNotInTail(vals);
        NewRun(vals, rest, RunLength(vals));
      }
    }
  }
}

=== FILE: index_helper.dfy ===
/**
 * The index lookups the engine asks of `IndexHelper`, as plain set logic
 * over the Indexes it was created from.
 */
module IndexHelper {
  import opened Model

  /** The distinct columns that carry at least one Index (`columnIndices().keySet()`). */
  function ColumnsOf(ixs: set<Index>): set<Column> {
    set ix | ix in ixs :: ix.column
  }

  /** Some Index in `ixs` is on column `c` (`shouldIndex`). */
  predicate ShouldIndex(ixs: set<Index>, c: Column) {
    exists ix :: ix in ixs && ix.column == c
  }

  /** The Indexes on column `c` (`indicesForColumn`). */
  function IndicesForColumn(ixs: set<Index>, c: Column): set<Index> {
    set ix | ix in ixs && ix.column == c
  }

  /** Number of distinct indexed columns (`columnCount`). */
  function ColumnCount(ixs: set<Index>): nat {
    |ColumnsOf(ixs)|
  }

  /** The three ways of asking "is `c` indexed" agree. */
  lemma ShouldIndexAgrees(ixs: set<Index>, c: Column)
    ensures ShouldIndex(ixs, c) <==> c in ColumnsOf(ixs)
    ensures ShouldIndex(ixs, c) <==> IndicesForColumn(ixs, c) != {}
  {
    if ShouldIndex(ixs, c) {
      var ix :| ix in ixs && ix.column == c;
      assert ix in IndicesForColumn(ixs, c);
    }
  }
}

=== FILE: ingest.dfy ===
/**
 * The write loops of `SortingImpl`: `performAdd` (insert with the indexes
 * configured at write time), `addIndicesForRecord`, and the two iteration
 * strategies of `performUpdate` (re-indexing stored documents). Each loop
 * collects the keys it hands to the batch writer; writing a key twice is
 * the same as writing it once, so the written keys form a set.
 */
module Ingest {
  import opened Model
  import opened IndexHelper
  import opened Encoding

  /** `addIndicesForRecord`: for each value, one put per Index. */
  method AddIndicesForRecord(uuid: string, d: Doc, indices: set<Index>, values: set<SValue>,
                             ser: Doc -> string) returns (written: set<Key>)
    ensures written == RecordIndexKeys(uuid, d, indices, values, ser)
  {
    written := {};
    var todo := values;
    while todo != {}
      invariant todo <= values
      invariant written == RecordIndexKeys(uuid, d, indices, values - todo, ser)
      decreases todo
    {
      var v :| v in todo;
      var pending := indices;
      var before := written;
      while pending != {}
        invariant pending <= indices
        invariant written == before + set ix | ix in indices - pending :: IndexKey(uuid, d, v, ix, ser)
        decreases pending
      {
        var ix :| ix in pending;
        written := written + {IndexKey(uuid, d, v, ix, ser)};
        pending := pending - {ix};
      }
      assert values - (todo - {v}) == (values - todo) + {v};
      todo := todo - {v};
    }
    assert values - todo == values;
  }

  /** The entries `performAdd` writes for one document, and the columns it marks present. */
  method AddDocumentEntries(uuid: string, ixs: set<Index>, d: Doc, ser: Doc -> string)
    returns (written: set<Key>, present: set<Column>)
    ensures written == DocKeys(uuid, ixs, d, ser)
    ensures present == DocColumns(d)
  {
    written := {PrimaryKey(uuid, d, ser)};
    present := {};
    var todo := Entries(d);
    ghost var done: set<(Column, SValue)> := {};
    while todo != {}
      invariant todo + done == Entries(d) && todo !! done
      invariant present == set e | e in done :: e.0
      invariant written == {PrimaryKey(uuid, d, ser)} + KeysOfEntries(uuid, d, ixs, done, ser)
      decreases todo
    {
      var e :| e in todo;
      var c := e.0;
      present := present + {c};
      if ShouldIndex(ixs, c) {
        var w := AddIndicesForRecord(uuid, d, IndicesForColumn(ixs, c), {e.1}, ser);
        written := written + w;
      }
      KeysOfEntriesStep(uuid, d, ixs, done, e, ser);
      todo := todo - {e};
      done := done + {e};
    }
    assert done == Entries(d);
    EntriesCoverColumns(d);
    KeysOfAllEntries(uuid, d, ixs, ser);
  }

  /** The index keys of a set of entries, for the Indexes on each entry's column. */
  ghost function KeysOfEntries(uuid: string, d: Doc, ixs: set<Index>, es: set<(Column, SValue)>,
                               ser: Doc -> string): set<Key>
  {
    set e, ix | e in es && ix in ixs && ix.column == e.0 :: IndexKey(uuid, d, e.1, ix, ser)
  }

  lemma KeysOfEntriesStep(uuid: string, d: Doc, ixs: set<Index>, es: set<(Column, SValue)>,
                          e: (Column, SValue), ser: Doc -> string)
    ensures KeysOfEntries(uuid, d, ixs, es + {e}, ser) ==
            KeysOfEntries(uuid, d, ixs, es, ser)
            + (if ShouldIndex(ixs, e.0) then RecordIndexKeys(uuid, d, IndicesForColumn(ixs, e.0), {e.1}, ser) else {})
  {
  }

  lemma EntriesCoverColumns(d: Doc)
    ensures (set e | e in Entries(d) :: e.0) == DocColumns(d)
  {
    forall c | c in DocColumns(d)
      ensures c in (set e | e in Entries(d) :: e.0)
    {
      var v :| v in d.values[c];
      assert (c, v) in Entries(d);
    }
  }

  lemma KeysOfAllEntries(uuid: string, d: Doc, ixs: set<Index>, ser: Doc -> string)
    ensures KeysOfEntries(uuid, d, ixs, Entries(d), ser) == IndexKeys(uuid, d, ixs, ser)
  {
    forall k | k in IndexKeys(uuid, d, ixs, ser)
      ensures k in KeysOfEntries(uuid, d, ixs, Entries(d), ser)
    {
      var ix, v :| ix in ixs && ix.column in d.values.Keys && ix.column in d.values && v in d.values[ix.column]
        && k == IndexKey(uuid, d, v, ix, ser);
      assert (ix.column, v) in Entries(d);
    }
  }

  /**
   * `performAdd`: every document's primary entry plus the index entries of
   * the Indexes configured now, and the presence of every column seen.
   */
  method PerformAdd(uuid: string, ixs: set<Index>, docs: seq<Doc>, ser: Doc -> string)
    returns (written: set<Key>, present: set<Column>)
    ensures written == AddedKeys(uuid, ixs, docs, ser)
    ensures present == ColumnsIn(docs)
  {
    written := {};
    present := {};
    for i := 0 to |docs|
      invariant written == AddedKeys(uuid, ixs, docs[..i], ser)
      invariant present == ColumnsIn(docs[..i])
    {
      var w, p := AddDocumentEntries(uuid, ixs, docs[i], ser);
      assert docs[..i + 1][..i] == docs[..i];
      written := written + w;
      present := present + p;
    }
    assert docs[..|docs|] == docs;
  }

  /** Re-index strategy used when the document has more columns than requested. */
  method ReindexByRequest(uuid: string, d: Doc, req: set<Index>, ser: Doc -> string)
    returns (written: set<Key>)
    ensures written == IndexKeys(uuid, d, req, ser)
  {
    written := {};
    var todo := ColumnsOf(req);
    ghost var done: set<Column> := {};
    while todo != {}
      invariant todo + done == ColumnsOf(req) && todo !! done
      invariant written == KeysForColumns(uuid, d, req, done, ser)
      decreases todo
    {
      var c :| c in todo;
      if c in DocColumns(d) {
        var w := AddIndicesForRecord(uuid, d, IndicesForColumn(req, c), d.values[c], ser);
        written := written + w;
      }
      KeysForColumnsStep(uuid, d, req, done, c, ser);
      todo := todo - {c};
      done := done + {c};
    }
    forall c | c in DocColumns(d) && ShouldIndex(req, c)
      ensures c in done
    {
      ShouldIndexAgrees(req, c);
    }
    KeysForColumnsCover(uuid, d, req, done, ser);
  }

  /** Re-index strategy used otherwise: visit every entry, write all values of its column. */
  method ReindexByEntries(uuid: string, d: Doc, req: set<Index>, ser: Doc -> string)
    returns (written: set<Key>)
    ensures written == IndexKeys(uuid, d, req, ser)
  {
    written := {};
    var todo := Entries(d);
    ghost var done: set<(Column, SValue)> := {};
    ghost var cols: set<Column> := {};
    while todo != {}
      invariant todo + done == Entries(d) && todo !! done
      invariant cols == set e | e in done :: e.0
      invariant written == KeysForColumns(uuid, d, req, cols, ser)
      decreases todo
    {
      var e :| e in todo;
      var c := e.0;
      assert c in d.values;
      if ShouldIndex(req, c) {
        var w := AddIndicesForRecord(uuid, d, IndicesForColumn(req, c), d.values[c], ser);
        written := written + w;
      }
      KeysForColumnsStep(uuid, d, req, cols, c, ser);
      todo := todo - {e};
      done := done + {e};
      cols := cols + {c};
    }
    EntriesCoverColumns(d);
    KeysForColumnsCover(uuid, d, req, cols, ser);
  }

  /**
   * One document of `performUpdate`: the cost test picks a strategy, and
   * both strategies write the document's index keys for the requested Indexes.
   */
  method ReindexDoc(uuid: string, d: Doc, req: set<Index>, ser: Doc -> string)
    returns (written: set<Key>)
    ensures written == IndexKeys(uuid, d, req, ser)
  {
    if |DocColumns(d)| > ColumnCount(req) {
      written := ReindexByRequest(uuid, d, req, ser);
    } else {
      written := ReindexByEntries(uuid, d, req, ser);
    }
  }

  /**
   * `performUpdate` over the documents the scan returned: the requested
   * Indexes join the descriptor first, then every document is re-indexed
   * for the requested Indexes only.
   */
  method PerformUpdate(ds: Dataset, docs: set<Doc>, req: set<Index>, ser: Doc -> string)
    returns (ds': Dataset, written: set<Key>)
    ensures ds' == ds.(indices := ds.indices + req)
    ensures written == ReindexKeys(ds.uuid, docs, req, ser)
  {
    ds' := ds.(indices := ds.indices + req);
    written := {};
    var todo := docs;
    while todo != {}
      invariant todo <= docs
      invariant written == ReindexKeys(ds.uuid, docs - todo, req, ser)
      decreases todo
    {
      var d :| d in todo;
      var w := ReindexDoc(ds.uuid, d, req, ser);
      assert docs - (todo - {d}) == (docs - todo) + {d};
      written := written + w;
      todo := todo - {d};
    }
    assert docs - todo == docs;
  }
}

=== FILE: kv_to_multimap.dfy ===
/**
 * Decoding of a scanned data-table entry (`KVToMultimap.apply`). The docId
 * is the qualifier's suffix after its first NUL; the document itself is not
 * deserialised: the result carries a single `ATALL` column holding the
 * cell's text under the key's visibility.
 */
module KVToMultimap {
  import opened Results
  import opened Model
  import opened Strings
  import opened Encoding

  /** The placeholder multimap built for every entry. */
  function Placeholder(k: Key): map<Column, set<SValue>> {
    map[Column(ATALL) := {SValue(k.value, k.vis)}]
  }

  /** Decode one entry; a qualifier without NUL is a format error. */
  function Apply(k: Key): (r: Result<Doc, Error>)
    ensures r.Err? <==> NUL !in k.cq
    ensures r.Err? ==> r.error == MissingSeparator(k)
    ensures r.Ok? ==> exists i :: 0 <= i < |k.cq| && k.cq[i] == NUL && NUL !in k.cq[..i]
                                 && r.value.docId == k.cq[i + 1..]
    ensures r.Ok? ==> r.value.vis == k.vis && r.value.values == Placeholder(k)
  {
    match FindNul(k.cq)
    case None => Err(MissingSeparator(k))
    case Some(i) => Ok(Doc(k.cq[i + 1..], k.vis, Placeholder(k)))
  }

  /** Decoding `dir \0 docId` with a NUL-free `dir` yields `docId`, whatever it contains. */
  lemma QualifierRoundTrip(k: Key, dir: string, docId: string)
    requires dir == FORWARD || dir == REVERSE
    requires k.cq == Qualifier(dir, docId)
    ensures Apply(k).Ok? && Apply(k).value.docId == docId
  {
    assert k.cq[1] == NUL;
    assert NUL !in k.cq[..1];
    assert k.cq[2..] == docId;
  }

  /** Decoding a primary entry recovers the docId and visibility, not the columns. */
  lemma PrimaryKeyDecodes(uuid: string, d: Doc, ser: Doc -> string)
    ensures var r := Apply(PrimaryKey(uuid, d, ser));
            r.Ok? && r.value.docId == d.docId && r.value.vis == d.vis
            && r.value.values == map[Column(ATALL) := {SValue(ser(d), d.vis)}]
  {
    QualifierRoundTrip(PrimaryKey(uuid, d, ser), FORWARD, d.docId);
  }

  /** Decoding an index entry recovers the docId of the document it indexes. */
  lemma IndexKeyDecodes(uuid: string, d: Doc, v: SValue, ix: Index, ser: Doc -> string)
    ensures var r := Apply(IndexKey(uuid, d, v, ix, ser));
            r.Ok? && r.value.docId == d.docId && r.value.vis == d.vis
  {
    QualifierRoundTrip(IndexKey(uuid, d, v, ix, ser), Direction(ix.order), d.docId);
  }
}

=== FILE: lifecycle.dfy ===
/**
 * The lifecycle states of datasets, kept in the metadata table. A dataset
 * without an entry reads as UNKNOWN.
 */
module Lifecycle {
  import opened Results
  import opened Model

  /** Persisted lifecycle state per dataset id. */
  type States = map<string, State>

  /** `SortingMetadata.getState`: an absent entry is UNKNOWN. */
  function GetState(states: States, uuid: string): State {
    if uuid in states then states[uuid] else Unknown
  }

  /** The states in which reads, `index` and `delete` are accepted. */
  const READABLE: set<State> := {Loading, Loaded}

  /** The check every public operation starts with. */
  function Guard(states: States, uuid: string, expected: set<State>): (r: Option<Error>)
    ensures r.None? <==> GetState(states, uuid) in expected
    ensures r.Some? ==> r.value == UnexpectedState(expected, GetState(states, uuid))
  {
    var s := GetState(states, uuid);
    if s in expected then None else Some(UnexpectedState(expected, s))
  }

  /**
   * The lifecycle graph: UNKNOWN to LOADING, LOADING to LOADED, LOADING or
   * LOADED to DELETING, and DELETING back to UNKNOWN once the entry is gone.
   */
  predicate Edge(from: State, to: State) {
    || (from == Unknown && to == Loading)
    || (from == Loading && to == Loaded)
    || (from in READABLE && to == Deleting)
    || (from == Deleting && to == Unknown)
  }
}

=== FILE: lock_retry.dfy ===
/**
 * The bounded lock-acquire loop shared by `addResults` and `index`: the
 * counter starts at 1, every failed acquire increments it, and the loop
 * stops once the lock is held or the counter reaches 4. Each acquire's
 * outcome is read from a sequence; an attempt beyond its end times out.
 */
module LockRetry {
  import opened Results

  /** Number of acquire attempts the loop makes at most. */
  const MAX_ATTEMPTS: nat := 3

  /** Outcome of acquire attempt `i` (0-based). */
  predicate Acquired(outcomes: seq<bool>, i: nat) {
    i < |outcomes| && outcomes[i]
  }

  /** The first successful attempt at or after `i`, within the budget. */
  function FirstSuccessFrom(outcomes: seq<bool>, i: nat): (r: Option<nat>)
    requires i <= MAX_ATTEMPTS
    ensures r.Some? ==> i <= r.value < MAX_ATTEMPTS && Acquired(outcomes, r.value)
    ensures r.Some? ==> forall j :: i <= j < r.value ==> !Acquired(outcomes, j)
    ensures r.None? ==> forall j :: i <= j < MAX_ATTEMPTS ==> !Acquired(outcomes, j)
    decreases MAX_ATTEMPTS - i
  {
    if i == MAX_ATTEMPTS then None
    else if Acquired(outcomes, i) then Some(i)
    else FirstSuccessFrom(outcomes, i + 1)
  }

  /** The first successful attempt within the budget, if any. */
  function FirstSuccess(outcomes: seq<bool>): Option<nat> {
    FirstSuccessFrom(outcomes, 0)
  }

  /**
   * What the retry loop leaves behind: whether the protected work ran and
   * the final value of the `count` variable (the number the error message
   * quotes).
   */
  datatype LockRun = LockRun(ran: bool, count: nat)

  /** The loop's effect, with and without `lockOnUpdates`. */
  function Run(lockOnUpdates: bool, outcomes: seq<bool>): (r: LockRun)
    ensures !lockOnUpdates ==> r == LockRun(true, 1)
    ensures lockOnUpdates ==> (r.ran <==> exists i :: 0 <= i < MAX_ATTEMPTS && Acquired(outcomes, i))
    ensures lockOnUpdates && !r.ran ==> r.count == MAX_ATTEMPTS + 1
  {
    if !lockOnUpdates then LockRun(true, 1)
    else match FirstSuccess(outcomes)
      case Some(i) => LockRun(true, i + 1)
      case None => LockRun(false, MAX_ATTEMPTS + 1)
  }

  /**
   * The loop itself. `runs` counts executions of the protected work and
   * `count` is the loop counter; at most three acquires are attempted and
   * the work runs exactly once when one of them succeeds, never otherwise.
   */
  method RetryLock(outcomes: seq<bool>) returns (locked: bool, count: nat, runs: nat)
    ensures runs <= 1 && (runs == 1 <==> locked)
    ensures locked <==> exists i :: 0 <= i < MAX_ATTEMPTS && Acquired(outcomes, i)
    ensures locked ==> 1 <= count <= MAX_ATTEMPTS && Acquired(outcomes, count - 1)
                       && forall j :: 0 <= j < count - 1 ==> !Acquired(outcomes, j)
    ensures !locked ==> count == MAX_ATTEMPTS + 1
    ensures Run(true, outcomes) == LockRun(locked, count)
  {
    locked := false;
    count := 1;
    runs := 0;
    while !locked && count < MAX_ATTEMPTS + 1
      invariant 1 <= count <= MAX_ATTEMPTS + 1
      invariant runs == (if locked then 1 else 0)
      invariant locked ==> 1 <= count <= MAX_ATTEMPTS && Acquired(outcomes, count - 1)
      invariant forall j :: 0 <= j < count - 1 ==> !Acquired(outcomes, j)
      decreases MAX_ATTEMPTS + 1 - count, if locked then 0 else 1
    {
      if Acquired(outcomes, count - 1) {
        locked := true;
        runs := runs + 1;
      } else {
        count := count + 1;
      }
    }
    if locked {
      var f := FirstSuccess(outcomes);
      assert f == Some(count - 1);
    }
  }
}

=== FILE: model.dfy ===
/**
 * The data model of the sorting engine: dataset lifecycle states, columns,
 * values, documents, indexes, data-table keys, dataset descriptors and the
 * errors the engine throws.
 */
module Model {

  /** The NUL character that separates the parts of a row or qualifier. */
  const NUL: char := '\0'

  /** Column family of a document's primary entry (`DOCID_FIELD_NAME`). */
  const DOCID_FIELD: string := "SORTS_DOCID"

  /** Direction markers written in front of an index qualifier. */
  const FORWARD: string := "f"
  const REVERSE: string := "r"

  /** The single column a decoded scan entry carries. */
  const ATALL: string := "ATALL"

  /** Lifecycle state of a dataset, as kept in the metadata table. */
  datatype State = Unknown | Loading | Loaded | Deleting

  /** Sort direction of an index. */
  datatype Order = Ascending | Descending

  /** A field name. */
  datatype Column = Column(name: string)

  /** A value held under a column: payload plus an opaque visibility label. */
  datatype SValue = SValue(payload: string, vis: string)

  /** A maintained sort order over one column. */
  datatype Index = Index(column: Column, order: Order)

  /**
   * A document (`QueryResult`): identifier, document-level visibility and a
   * multimap from columns to the set of values held under each.
   */
  datatype Doc = Doc(docId: string, vis: string, values: map<Column, set<SValue>>)

  /**
   * The columns a document holds at least one value for: a multimap has no
   * key whose value collection is empty (`containsKey`, `keySet`).
   */
  function DocColumns(d: Doc): set<Column> {
    set c | c in d.values && d.values[c] != {}
  }

  /** The (column, value) entries of a document (`columnValues()`). */
  function Entries(d: Doc): set<(Column, SValue)> {
    set c, v | c in d.values && v in d.values[c] :: (c, v)
  }

  /** One cell of the data table. */
  datatype Key = Key(row: string, cf: string, cq: string, vis: string, value: string)

  /**
   * A dataset descriptor (`SortableResult`): its id (the row prefix), the
   * set of indexes it maintains and whether mutations take the lock.
   */
  datatype Dataset = Dataset(uuid: string, indices: set<Index>, lockOnUpdates: bool)

  /** The exceptions the engine throws. */
  datatype Error =
    | UnexpectedState(expected: set<State>, actual: State)
    | UnindexedColumn(ordering: Index)
    | MissingSeparator(key: Key)
    | LockNotAcquired(attempts: nat)
}

=== FILE: options.dfy ===
/**
 * Paging limits (`cosmos.options.Paging`): a page size (a Java `Integer`)
 * and a total result cap (a Java `Long`), both boxed, so either may be null.
 */
module Options {
  import opened Results

  /** Range of a Java `int`. */
  type Int32 = x: int | -0x8000_0000 <= x < 0x8000_0000

  /** Range of a Java `long`. */
  type Int64 = x: int | -0x8000_0000_0000_0000 <= x < 0x8000_0000_0000_0000

  /** A constructed Paging. */
  datatype Paging = Paging(pageSize: Int32, maxResults: Int64)

  /** `checkNotNull` raises a NullPointerException; `checkArgument` an IllegalArgumentException. */
  datatype PagingError = NullArgument | IllegalArgument

  /**
   * The constructor: both arguments non-null (checked first), then both
   * strictly positive; the fields keep the arguments.
   */
  function NewPaging(pageSize: Option<Int32>, maxResults: Option<Int64>): (r: Result<Paging, PagingError>)
    ensures pageSize.None? || maxResults.None? ==> r == Err(NullArgument)
    ensures pageSize.Some? && maxResults.Some? ==>
              (r.Ok? <==> 0 < pageSize.value && 0 < maxResults.value)
    ensures r.Err? && pageSize.Some? && maxResults.Some? ==> r.error == IllegalArgument
    ensures r.Ok? ==> PageSize(r.value) == pageSize.value && MaxResults(r.value) == maxResults.value
  {
    if pageSize.None? || maxResults.None? then Err(NullArgument)
    else if !(0 < pageSize.value) then Err(IllegalArgument)
    else if !(0 < maxResults.value) then Err(IllegalArgument)
    else Ok(Paging(pageSize.value, maxResults.value))
  }

  /** Accessor `pageSize()`. */
  function PageSize(p: Paging): Int32 {
    p.pageSize
  }

  /** Accessor `maxResults()`. */
  function MaxResults(p: Paging): Int64 {
    p.maxResults
  }

  /** `Paging.create`: the same validation as the constructor. */
  function Create(pageSize: Option<Int32>, maxResults: Option<Int64>): (r: Result<Paging, PagingError>)
    ensures r.Ok? <==> pageSize.Some? && maxResults.Some? && 0 < pageSize.value && 0 < maxResults.value
    ensures pageSize.None? || maxResults.None? ==> r == Err(NullArgument)
    ensures r.Err? && pageSize.Some? && maxResults.Some? ==> r.error == IllegalArgument
    ensures r.Ok? ==> PageSize(r.value) == pageSize.value && MaxResults(r.value) == maxResults.value
  {
    NewPaging(pageSize, maxResults)
  }

  /**
   * The constructor accepts exactly the positive limits, and its accessors
   * give back what it was given: a valid Paging rebuilt from its own
   * accessors is itself.
   */
  lemma PagingRoundTrip(p: Paging)
    ensures NewPaging(Some(PageSize(p)), Some(MaxResults(p))).Ok? <==> PageSize(p) > 0 && MaxResults(p) > 0
    ensures PageSize(p) > 0 && MaxResults(p) > 0 ==> NewPaging(Some(PageSize(p)), Some(MaxResults(p))) == Ok(p)
  {
  }
}

=== FILE: properties.dfy ===
/**
 * Properties relating several operations of the engine: what a load makes
 * visible, what a delete removes, how datasets stay apart, re-indexing,
 * and group-by.
 */
module Properties {
  import opened Results
  import opened Model
  import opened Strings
  import opened Lifecycle
  import opened IndexHelper
  import opened Encoding
  import opened KVToMultimap
  import opened LockRetry
  import opened GroupBy
  import opened Sorting

  /** The dataset's state is unchanged or moves along one lifecycle edge. */
  predicate StepOrStay(before: States, after: States, uuid: string) {
    GetState(after, uuid) == GetState(before, uuid) || Edge(GetState(before, uuid), GetState(after, uuid))
  }

  /** Every operation moves the dataset along the lifecycle graph only. */
  lemma LifecycleFollowsEdges(st: Store, ds: Dataset, docs: seq<Doc>, req: set<Index>, outcomes: seq<bool>,
                              ser: Doc -> string, de: string -> Doc)
    ensures StepOrStay(st.states, Register(st, ds).store.states, ds.uuid)
    ensures StepOrStay(st.states, Finalize(st, ds).store.states, ds.uuid)
    ensures AddResults(st, ds, docs, outcomes, ser).store.states == st.states
    ensures IndexDataset(st, ds, req, outcomes, ser, de).store.states == st.states
    ensures var del := Delete(st, ds);
            StepOrStay(st.states, del.marked, ds.uuid) && StepOrStay(del.marked, del.outcome.store.states, ds.uuid)
  {
  }

  /** The documents of a sequence, as a set. */
  function DocSet(docs: seq<Doc>): set<Doc> {
    set i | 0 <= i < |docs| :: docs[i]
  }

  /**
   * No index key lands in the primary family unless the document holds a
   * value in an indexed column named like it.
   */
  lemma IndexKeysNotPrimary(uuid: string, d: Doc, ixs: set<Index>, ser: Doc -> string)
    requires forall ix :: ix in ixs && ix.column in DocColumns(d) ==> ix.column.name != DOCID_FIELD
    ensures forall k :: k in IndexKeys(uuid, d, ixs, ser) ==> k.cf != DOCID_FIELD
  {
    forall k | k in IndexKeys(uuid, d, ixs, ser)
      ensures k.cf != DOCID_FIELD
    {
      var ix, v :| ix in ixs && ix.column in d.values.Keys && ix.column in d.values && v in d.values[ix.column]
        && k == IndexKey(uuid, d, v, ix, ser);
      assert ix.column in DocColumns(d);
    }
  }

  /** Every entry written for a document carries its serialised form. */
  lemma DocKeysValue(uuid: string, ixs: set<Index>, d: Doc, ser: Doc -> string, k: Key)
    requires k in DocKeys(uuid, ixs, d, ser)
    ensures k.value == ser(d) && HasPrefix(k.row, uuid + [NUL])
  {
    if k in IndexKeys(uuid, d, ixs, ser) {
      IndexKeysOnlyIndexedColumns(uuid, d, ixs, ser, k);
    } else {
      PrefixOfConcat(uuid + [NUL], d.docId);
    }
  }

  /**
   * After `register` and `addResults` on a dataset with no data yet,
   * `fetch` returns exactly one primary entry per inserted document (given
   * no document holds a value in an indexed column named like the primary
   * family; an Index on that name alone, as docId-ordered reads use, is fine).
   */
  lemma LoadThenFetch(st: Store, ds: Dataset, docs: seq<Doc>, outcomes: seq<bool>, ser: Doc -> string)
    requires GetState(st.states, ds.uuid) == Unknown
    requires Run(ds.lockOnUpdates, outcomes).ran
    requires forall k :: k in st.data ==> !HasPrefix(k.row, ds.uuid)
    requires forall i, ix :: 0 <= i < |docs| && ix in ds.indices && ix.column in DocColumns(docs[i]) ==>
               ix.column.name != DOCID_FIELD
    ensures var o := AddResults(Register(st, ds).store, ds, docs, outcomes, ser);
            o.thrown.None?
            && Fetch(o.store, ds) == Ok(set i | 0 <= i < |docs| :: PrimaryKey(ds.uuid, docs[i], ser))
  {
    var st1 := Register(st, ds).store;
    var o := AddResults(st1, ds, docs, outcomes, ser);
    var got := Scan(o.store.data, ds.uuid, DOCID_FIELD);
    var want := set i | 0 <= i < |docs| :: PrimaryKey(ds.uuid, docs[i], ser);
    forall k | k in got
      ensures k in want
    {
      AddedKeysMembership(ds.uuid, ds.indices, docs, ser, k);
      var i :| 0 <= i < |docs| && k in DocKeys(ds.uuid, ds.indices, docs[i], ser);
      IndexKeysNotPrimary(ds.uuid, docs[i], ds.indices, ser);
    }
    forall k | k in want
      ensures k in got
    {
      var i :| 0 <= i < |docs| && k == PrimaryKey(ds.uuid, docs[i], ser);
      AddedKeysMembership(ds.uuid, ds.indices, docs, ser, k);
      DocKeysValue(ds.uuid, ds.indices, docs[i], ser, k);
      PrefixWeaken(k.row, ds.uuid, [NUL]);
    }
    assert got == want;
  }

  /** Every primary entry a load makes visible decodes to an inserted document's id and visibility. */
  lemma FetchedEntriesDecode(uuid: string, docs: seq<Doc>, ser: Doc -> string, k: Key)
    requires k in set i | 0 <= i < |docs| :: PrimaryKey(uuid, docs[i], ser)
    ensures Apply(k).Ok?
    ensures exists i :: 0 <= i < |docs| && Apply(k).value.docId == docs[i].docId && Apply(k).value.vis == docs[i].vis
  {
    var i :| 0 <= i < |docs| && k == PrimaryKey(uuid, docs[i], ser);
    PrimaryKeyDecodes(uuid, docs[i], ser);
  }

  /**
   * `fetch(id, column, value)` after a load returns exactly the index
   * entries of `column` whose value is `value`, one per matching Index; a
   * column named like the primary family also yields the primary entry of
   * the document whose docId is `value`.
   */
  lemma FetchByValueAfterLoad(st: Store, ds: Dataset, docs: seq<Doc>, outcomes: seq<bool>, ser: Doc -> string,
                              column: Column, value: string, k: Key)
    requires GetState(st.states, ds.uuid) == Loading
    requires Run(ds.lockOnUpdates, outcomes).ran
    requires forall k :: k in st.data ==> !HasPrefix(k.row, ds.uuid)
    ensures var r := FetchByValue(AddResults(st, ds, docs, outcomes, ser).store, ds, column, value);
            r.Ok? &&
            (k in r.value <==>
              (exists i, ix :: 0 <= i < |docs| && ix in ds.indices && ix.column == column && column in docs[i].values
                && k in set v | v in docs[i].values[column] && v.payload == value :: IndexKey(ds.uuid, docs[i], v, ix, ser))
              || (column.name == DOCID_FIELD &&
                  exists i :: 0 <= i < |docs| && docs[i].docId == value && k == PrimaryKey(ds.uuid, docs[i], ser)))
  {
    var o := AddResults(st, ds, docs, outcomes, ser);
    var r := FetchByValue(o.store, ds, column, value);
    PrefixOfConcat(ds.uuid, [NUL] + value);
    assert Row(ds.uuid, value) == ds.uuid + ([NUL] + value);
    AddedKeysMembership(ds.uuid, ds.indices, docs, ser, k);
    if k in r.value {
      var i :| 0 <= i < |docs| && k in DocKeys(ds.uuid, ds.indices, docs[i], ser);
      if k == PrimaryKey(ds.uuid, docs[i], ser) {
        RowInjective(ds.uuid, docs[i].docId, value);
      } else {
        assert k in IndexKeys(ds.uuid, docs[i], ds.indices, ser);
        var ix, v :| ix in ds.indices && ix.column in docs[i].values.Keys && ix.column in docs[i].values
          && v in docs[i].values[ix.column] && k == IndexKey(ds.uuid, docs[i], v, ix, ser);
        RowInjective(ds.uuid, v.payload, value);
        assert ix.column == column;
      }
    }
  }

  /**
   * `fetch(id, ordering, duplicateUidsAllowed)` after a load returns exactly
   * the index entries written for the ordering's column, under every Index
   * on that column, plus, when the column is named like the primary family
   * (a docId-ordered read), every primary entry; each of them decodes to an
   * inserted document.
   */
  lemma FetchIndexAfterLoad(st: Store, ds: Dataset, docs: seq<Doc>, outcomes: seq<bool>, ser: Doc -> string,
                            ordering: Index, duplicateUidsAllowed: bool, k: Key)
    requires GetState(st.states, ds.uuid) == Loading
    requires Run(ds.lockOnUpdates, outcomes).ran
    requires forall k :: k in st.data ==> !HasPrefix(k.row, ds.uuid)
    requires ordering in ds.indices
    ensures var r := FetchIndex(AddResults(st, ds, docs, outcomes, ser).store, ds, ordering, duplicateUidsAllowed);
            r.Ok? && r.value.dedup == !duplicateUidsAllowed &&
            (k in r.value.keys <==>
              (exists i, ix, v :: 0 <= i < |docs| && ix in ds.indices && ix.column == ordering.column
                && ix.column in docs[i].values && v in docs[i].values[ix.column]
                && k == IndexKey(ds.uuid, docs[i], v, ix, ser))
              || (ordering.column.name == DOCID_FIELD &&
                  exists i :: 0 <= i < |docs| && k == PrimaryKey(ds.uuid, docs[i], ser)))
    ensures var r := FetchIndex(AddResults(st, ds, docs, outcomes, ser).store, ds, ordering, duplicateUidsAllowed);
            k in r.value.keys ==> Apply(k).Ok? && exists i :: 0 <= i < |docs| && Apply(k).value.docId == docs[i].docId
  {
    var o := AddResults(st, ds, docs, outcomes, ser);
    var r := FetchIndex(o.store, ds, ordering, duplicateUidsAllowed);
    AddedKeysMembership(ds.uuid, ds.indices, docs, ser, k);
    if k in AddedKeys(ds.uuid, ds.indices, docs, ser) {
      AddedKeysCarryPrefix(ds.uuid, ds.indices, docs, ser, k);
      PrefixWeaken(k.row, ds.uuid, [NUL]);
    }
    if k in r.value.keys {
      var i :| 0 <= i < |docs| && k in DocKeys(ds.uuid, ds.indices, docs[i], ser);
      if k == PrimaryKey(ds.uuid, docs[i], ser) {
        PrimaryKeyDecodes(ds.uuid, docs[i], ser);
      } else {
        assert k in IndexKeys(ds.uuid, docs[i], ds.indices, ser);
        var ix, v :| ix in ds.indices && ix.column in docs[i].values.Keys && ix.column in docs[i].values
          && v in docs[i].values[ix.column] && k == IndexKey(ds.uuid, docs[i], v, ix, ser);
        assert ix.column == ordering.column;
        IndexKeyDecodes(ds.uuid, docs[i], v, ix, ser);
      }
    }
  }

  /** Every row an insert or a re-index writes starts with `uuid \0`. */
  lemma WrittenRowsCarryPrefix(uuid: string, ixs: set<Index>, docs: seq<Doc>, stored: set<Doc>,
                               req: set<Index>, ser: Doc -> string)
    ensures forall k :: k in AddedKeys(uuid, ixs, docs, ser) ==> HasPrefix(k.row, uuid + [NUL])
    ensures forall k :: k in ReindexKeys(uuid, stored, req, ser) ==> HasPrefix(k.row, uuid + [NUL])
  {
    forall k | k in AddedKeys(uuid, ixs, docs, ser)
      ensures HasPrefix(k.row, uuid + [NUL])
    {
      AddedKeysCarryPrefix(uuid, ixs, docs, ser, k);
    }
    forall k | k in ReindexKeys(uuid, stored, req, ser)
      ensures HasPrefix(k.row, uuid + [NUL])
    {
      var d :| d in stored && k in IndexKeys(uuid, d, req, ser);
      IndexKeysOnlyIndexedColumns(uuid, d, req, ser, k);
    }
  }

  /**
   * `delete`'s single prefix range is complete: no primary or index entry
   * an insert or a re-index wrote for the dataset survives it, and the
   * dataset reads as UNKNOWN again.
   */
  lemma DeleteRemovesAllWrites(st: Store, ds: Dataset, ixs: set<Index>, docs: seq<Doc>, stored: set<Doc>,
                               req: set<Index>, ser: Doc -> string)
    requires GetState(st.states, ds.uuid) in READABLE
    ensures var o := Delete(st, ds).outcome;
            && o.thrown.None?
            && GetState(o.store.states, ds.uuid) == Unknown
            && (forall k :: k in AddedKeys(ds.uuid, ixs, docs, ser) ==> k !in o.store.data)
            && (forall k :: k in ReindexKeys(ds.uuid, stored, req, ser) ==> k !in o.store.data)
  {
    WrittenRowsCarryPrefix(ds.uuid, ixs, docs, stored, req, ser);
    forall k: Key | HasPrefix(k.row, ds.uuid + [NUL])
      ensures HasPrefix(k.row, ds.uuid)
    {
      PrefixWeaken(k.row, ds.uuid, [NUL]);
    }
  }

  /** A delete leaves the entries of every dataset whose id is prefix-free with it. */
  lemma DeleteKeepsOtherDatasets(st: Store, ds: Dataset, other: string, k: Key)
    requires PrefixFree(ds.uuid, other)
    requires k in st.data && HasPrefix(k.row, other + [NUL])
    ensures k in Delete(st, ds).outcome.store.data
  {
    PrefixIsolation(ds.uuid, other, k.row);
  }

  /** Without prefix-free ids the ranges overlap: deleting "a" would take rows of "ab". */
  lemma PrefixOverlapExample()
    ensures !PrefixFree("a", "ab")
    ensures HasPrefix(Row("ab", "x"), "a")
  {
    assert "ab"[..1] == "a";
    assert Row("ab", "x")[..1] == "a";
  }

  /** `delete` then `register` starts the dataset afresh: LOADING, nothing to fetch, no columns. */
  lemma DeleteThenRegister(st: Store, ds: Dataset)
    requires GetState(st.states, ds.uuid) in READABLE
    ensures var r := Register(Delete(st, ds).outcome.store, ds);
            r.thrown.None? && GetState(r.store.states, ds.uuid) == Loading
            && Fetch(r.store, ds) == Ok({}) && Columns(r.store, ds) == Ok({})
  {
    var r := Register(Delete(st, ds).outcome.store, ds);
    assert Scan(r.store.data, ds.uuid, DOCID_FIELD) == {};
  }

  /** The columns an insert records are those of its documents. */
  lemma {:induction false} ColumnsInMembership(docs: seq<Doc>, c: Column)
    ensures c in ColumnsIn(docs) <==> exists i :: 0 <= i < |docs| && c in DocColumns(docs[i])
    decreases |docs|
  {
    if |docs| > 0 {
      var init := docs[..|docs| - 1];
      ColumnsInMembership(init, c);
      if c in ColumnsIn(init) {
        var i :| 0 <= i < |init| && c in DocColumns(init[i]);
        assert docs[i] == init[i];
      }
      if exists i :: 0 <= i < |docs| && c in DocColumns(docs[i]) {
        var i :| 0 <= i < |docs| && c in DocColumns(docs[i]);
        if i < |docs| - 1 {
          assert init[i] == docs[i];
        }
      }
    }
  }

  /** Index keys under a union of Indexes are the union of the index keys. */
  lemma IndexKeysUnion(uuid: string, d: Doc, ixs: set<Index>, req: set<Index>, ser: Doc -> string)
    ensures IndexKeys(uuid, d, ixs + req, ser) == IndexKeys(uuid, d, ixs, ser) + IndexKeys(uuid, d, req, ser)
  {
  }

  /** Inserting with `ixs + req` writes what inserting with `ixs` and re-indexing with `req` write. */
  lemma {:induction false} AddedKeysSplit(uuid: string, ixs: set<Index>, req: set<Index>, docs: seq<Doc>,
                                          ser: Doc -> string)
    ensures AddedKeys(uuid, ixs + req, docs, ser) == AddedKeys(uuid, ixs, docs, ser) + ReindexKeys(uuid, DocSet(docs), req, ser)
    decreases |docs|
  {
    if |docs| > 0 {
      var init := docs[..|docs| - 1];
      var last := docs[|docs| - 1];
      AddedKeysSplit(uuid, ixs, req, init, ser);
      IndexKeysUnion(uuid, last, ixs, req, ser);
      assert DocSet(docs) == DocSet(init) + {last} by {
        forall d | d in DocSet(docs)
          ensures d in DocSet(init) + {last}
        {
          var i :| 0 <= i < |docs| && d == docs[i];
          if i < |docs| - 1 {
            assert init[i] == docs[i];
          }
        }
      }
      assert ReindexKeys(uuid, DocSet(docs), req, ser)
          == ReindexKeys(uuid, DocSet(init), req, ser) + IndexKeys(uuid, last, req, ser);
    } else {
      assert DocSet(docs) == {};
    }
  }

  /** Reading a freshly loaded dataset back with an inverse of the serialiser yields its documents. */
  lemma StoredDocsAfterLoad(st: Store, ds: Dataset, docs: seq<Doc>, outcomes: seq<bool>,
                            ser: Doc -> string, de: string -> Doc)
    requires GetState(st.states, ds.uuid) == Loading
    requires Run(ds.lockOnUpdates, outcomes).ran
    requires forall k :: k in st.data ==> !HasPrefix(k.row, ds.uuid)
    requires forall i :: 0 <= i < |docs| ==> de(ser(docs[i])) == docs[i]
    ensures StoredDocs(AddResults(st, ds, docs, outcomes, ser).store.data, ds.uuid, de) == DocSet(docs)
  {
    var data := AddResults(st, ds, docs, outcomes, ser).store.data;
    forall d | d in StoredDocs(data, ds.uuid, de)
      ensures d in DocSet(docs)
    {
      var k :| k in Scan(data, ds.uuid, DOCID_FIELD) && d == de(k.value);
      AddedKeysMembership(ds.uuid, ds.indices, docs, ser, k);
      var i :| 0 <= i < |docs| && k in DocKeys(ds.uuid, ds.indices, docs[i], ser);
      DocKeysValue(ds.uuid, ds.indices, docs[i], ser, k);
    }
    forall d | d in DocSet(docs)
      ensures d in StoredDocs(data, ds.uuid, de)
    {
      var i :| 0 <= i < |docs| && d == docs[i];
      var k := PrimaryKey(ds.uuid, d, ser);
      AddedKeysMembership(ds.uuid, ds.indices, docs, ser, k);
      DocKeysValue(ds.uuid, ds.indices, d, ser, k);
      PrefixWeaken(k.row, ds.uuid, [NUL]);
      assert k in Scan(data, ds.uuid, DOCID_FIELD);
    }
  }

  /**
   * Re-indexing loaded data with `req` leaves the data table exactly as if
   * the documents had been inserted with `req` configured from the start.
   */
  lemma ReindexMatchesInsertTime(st: Store, ds: Dataset, docs: seq<Doc>, req: set<Index>,
                                 a1: seq<bool>, a2: seq<bool>, ser: Doc -> string, de: string -> Doc)
    requires GetState(st.states, ds.uuid) == Loading
    requires Run(ds.lockOnUpdates, a1).ran && Run(ds.lockOnUpdates, a2).ran
    requires forall k :: k in st.data ==> !HasPrefix(k.row, ds.uuid)
    requires forall i :: 0 <= i < |docs| ==> de(ser(docs[i])) == docs[i]
    ensures var o1 := AddResults(st, ds, docs, a1, ser);
            var o2 := IndexDataset(o1.store, o1.ds, req, a2, ser, de);
            && o2.thrown.None?
            && o2.ds.indices == ds.indices + req
            && o2.store.data == st.data + AddedKeys(ds.uuid, ds.indices + req, docs, ser)
  {
    StoredDocsAfterLoad(st, ds, docs, a1, ser, de);
    AddedKeysSplit(ds.uuid, ds.indices, req, docs, ser);
  }

  /**
   * `index` is idempotent: a second call with the same Indexes writes
   * nothing new and leaves the descriptor as the first call left it
   * (unless a requested Index names the primary family and a stored
   * document holds a value in that column, whose entries would then be read
   * back as documents).
   */
  lemma IndexIdempotent(st: Store, ds: Dataset, req: set<Index>, a1: seq<bool>, a2: seq<bool>,
                        ser: Doc -> string, de: string -> Doc)
    requires GetState(st.states, ds.uuid) in READABLE
    requires Run(ds.lockOnUpdates, a1).ran && Run(ds.lockOnUpdates, a2).ran
    requires forall d, ix :: d in StoredDocs(st.data, ds.uuid, de) && ix in req && ix.column in DocColumns(d) ==>
               ix.column.name != DOCID_FIELD
    ensures var o1 := IndexDataset(st, ds, req, a1, ser, de);
            var o2 := IndexDataset(o1.store, o1.ds, req, a2, ser, de);
            o1.thrown.None? && o2 == Outcome(o1.store, o1.ds, None)
  {
    var o1 := IndexDataset(st, ds, req, a1, ser, de);
    var added := ReindexKeys(ds.uuid, StoredDocs(st.data, ds.uuid, de), req, ser);
    forall k | k in added
      ensures k.cf != DOCID_FIELD
    {
      var d :| d in StoredDocs(st.data, ds.uuid, de) && k in IndexKeys(ds.uuid, d, req, ser);
      IndexKeysNotPrimary(ds.uuid, d, req, ser);
    }
    assert Scan(o1.store.data, ds.uuid, DOCID_FIELD) == Scan(st.data, ds.uuid, DOCID_FIELD);
    assert o1.ds.indices + req == o1.ds.indices;
  }

  // The counterexample to re-indexing as written: one document with COLOR = Blue.
  const BLUE: SValue := SValue("Blue", "")
  const BLUE_DOC: Doc := Doc("1", "", map[Column("COLOR") := {BLUE}])
  const COLOR_ASC: Index := Index(Column("COLOR"), Ascending)

  lemma BlueDocLoads(ser: Doc -> string)
    ensures AddedKeys("u", {}, [BLUE_DOC], ser) == {PrimaryKey("u", BLUE_DOC, ser)}
    ensures IndexKey("u", BLUE_DOC, BLUE, COLOR_ASC, ser) in AddedKeys("u", {COLOR_ASC}, [BLUE_DOC], ser)
  {
    assert [BLUE_DOC][..0] == [];
    assert IndexKeys("u", BLUE_DOC, {}, ser) == {};
    assert IndexKey("u", BLUE_DOC, BLUE, COLOR_ASC, ser) in IndexKeys("u", BLUE_DOC, {COLOR_ASC}, ser);
  }

  lemma DecodeSingle(k: Key)
    requires NUL in k.cq
    ensures DecodeAll({k}) == Ok({Apply(k).value})
  {
    var r := DecodeAll({k});
    assert r.Ok?;
    assert Apply(k).value in r.value;
    forall d | d in r.value
      ensures d == Apply(k).value
    {
      var k' :| k' in {k} && Apply(k') == Ok(d);
    }
    assert r.value == {Apply(k).value};
  }

  lemma BlueDocScansAsPlaceholder(ser: Doc -> string)
    ensures var pk := PrimaryKey("u", BLUE_DOC, ser);
            Scan({pk}, "u", DOCID_FIELD) == {pk}
            && DecodeAll({pk}) == Ok({Doc("1", "", Placeholder(pk))})
  {
    var pk := PrimaryKey("u", BLUE_DOC, ser);
    PrefixOfConcat("u", [NUL] + "1");
    assert pk.row == "u" + ([NUL] + "1");
    PrimaryKeyDecodes("u", BLUE_DOC, ser);
    assert NUL in pk.cq;
    DecodeSingle(pk);
    assert Apply(pk).value == Doc("1", "", Placeholder(pk));
  }

  lemma PlaceholderHasNoColor(pk: Key, ser: Doc -> string)
    ensures ReindexKeys("u", {Doc("1", "", Placeholder(pk))}, {COLOR_ASC}, ser) == {}
  {
    var placeholder := Doc("1", "", Placeholder(pk));
    assert placeholder.values.Keys == {Column(ATALL)};
    assert IndexKeys("u", placeholder, {COLOR_ASC}, ser) == {};
  }

  /**
   * As written, re-indexing reads back `KVToMultimap` placeholders, which
   * hold only an `ATALL` column: indexing COLOR on a loaded document holding
   * COLOR = Blue writes no COLOR entry, although an insert with that Index
   * would have.
   */
  lemma ReindexAsWrittenMissesColumns(ser: Doc -> string)
    ensures var ds := Dataset("u", {}, true);
            var o1 := AddResults(Store(map["u" := Loading], {}, map[]), ds, [BLUE_DOC], [true], ser);
            var o2 := IndexDatasetAsWritten(o1.store, o1.ds, {COLOR_ASC}, [true], ser);
            && o2.thrown.None?
            && o2.ds.indices == {COLOR_ASC}
            && IndexKey("u", BLUE_DOC, BLUE, COLOR_ASC, ser) in AddedKeys("u", {COLOR_ASC}, [BLUE_DOC], ser)
            && IndexKey("u", BLUE_DOC, BLUE, COLOR_ASC, ser) !in o2.store.data
  {
    var pk := PrimaryKey("u", BLUE_DOC, ser);
    BlueDocLoads(ser);
    BlueDocScansAsPlaceholder(ser);
    PlaceholderHasNoColor(pk, ser);
    var ds := Dataset("u", {}, true);
    var o1 := AddResults(Store(map["u" := Loading], {}, map[]), ds, [BLUE_DOC], [true], ser);
    assert o1.store.data == {pk};
    var o2 := IndexDatasetAsWritten(o1.store, o1.ds, {COLOR_ASC}, [true], ser);
    assert o2.store.data == {pk};
  }

  /** Re-indexing decoded placeholders writes only `ATALL` entries, and only when an Index on `ATALL` is requested. */
  lemma PlaceholderReindexOnlyAtall(uuid: string, docs: set<Doc>, req: set<Index>, ser: Doc -> string, k: Key)
    requires forall d :: d in docs ==> exists pk :: Apply(pk) == Ok(d)
    requires k in ReindexKeys(uuid, docs, req, ser)
    ensures k.cf == ATALL
    ensures exists ix :: ix in req && ix.column == Column(ATALL)
  {
    var d :| d in docs && k in IndexKeys(uuid, d, req, ser);
    var pk :| Apply(pk) == Ok(d);
    assert d.values.Keys == {Column(ATALL)};
    IndexKeysOnlyIndexedColumns(uuid, d, req, ser, k);
  }

  /**
   * As written, whatever `index` adds to the data table lies in the `ATALL`
   * family, whichever Indexes were requested: the documents it re-indexes
   * are placeholders holding no other column.
   */
  lemma ReindexAsWrittenOnlyAtall(st: Store, ds: Dataset, req: set<Index>, outcomes: seq<bool>,
                                  ser: Doc -> string, k: Key)
    requires k in IndexDatasetAsWritten(st, ds, req, outcomes, ser).store.data
    requires k !in st.data
    ensures k.cf == ATALL
    ensures exists ix :: ix in req && ix.column == Column(ATALL)
  {
    var decoded := DecodeAll(Scan(st.data, ds.uuid, DOCID_FIELD));
    assert GetState(st.states, ds.uuid) in READABLE && Run(ds.lockOnUpdates, outcomes).ran && decoded.Ok?;
    assert k in ReindexKeys(ds.uuid, decoded.value, req, ser);
    PlaceholderReindexOnlyAtall(ds.uuid, decoded.value, req, ser, k);
  }

  /** As written, `index` without `lockOnUpdates` does the re-index and then throws the lock error. */
  lemma UnlockedIndexAsWrittenThrows(st: Store, ds: Dataset, req: set<Index>, outcomes: seq<bool>, ser: Doc -> string)
    requires !ds.lockOnUpdates
    requires GetState(st.states, ds.uuid) in READABLE
    requires forall k :: k in st.data ==> NUL in k.cq
    ensures var o := IndexDatasetAsWritten(st, ds, req, outcomes, ser);
            o.ds == ds.(indices := ds.indices + req) && o.thrown == Some(LockNotAcquired(1))
  {
  }

  /** The intended `index` without `lockOnUpdates` returns normally after re-indexing. */
  lemma UnlockedIndexSucceeds(st: Store, ds: Dataset, req: set<Index>, outcomes: seq<bool>,
                              ser: Doc -> string, de: string -> Doc)
    requires !ds.lockOnUpdates
    requires GetState(st.states, ds.uuid) in READABLE
    ensures var o := IndexDataset(st, ds, req, outcomes, ser, de);
            o.ds == ds.(indices := ds.indices + req) && o.thrown.None?
  {
  }

  /** `groupResults` runs on a column no Index covers, where the index fetch refuses. */
  lemma GroupByIgnoresIndexes(st: Store, ds: Dataset, column: Column, scan: seq<Key>)
    requires GetState(st.states, ds.uuid) in READABLE
    requires !ShouldIndex(ds.indices, column)
    ensures GroupResults(st, ds, column, scan).Ok?
    ensures forall o :: FetchIndex(st, ds, Index(column, o), true) == Err(UnindexedColumn(Index(column, o)))
  {
  }

  /** Values in non-decreasing lexicographic order, compared pairwise. */
  predicate SortedValues(vals: seq<string>) {
    forall i, j :: 0 <= i < j < |vals| ==> vals[i] == vals[j] || LexLt(vals[i], vals[j])
  }

  /** Pairwise sorted values are grouped. */
  lemma SortedIsGrouped(vals: seq<string>)
    requires SortedValues(vals)
    ensures Grouped(vals)
  {
    forall i, j, k | 0 <= i < j < k < |vals| && vals[i] == vals[k]
      ensures vals[j] == vals[i]
    {
      LexLtAsymmetric(vals[i], vals[j]);
    }
  }

  /**
   * On a scan in row order, `groupResults` yields one pair per distinct value,
   * counting the scanned entries that hold it.
   */
  lemma GroupResultsCountOccurrences(st: Store, ds: Dataset, column: Column, scan: seq<Key>)
    requires GetState(st.states, ds.uuid) in READABLE
    requires SortedValues(RowValues(Selected(scan, ds.uuid, column), ds.uuid))
    ensures GroupResults(st, ds, column, scan).Ok?
    ensures DistinctRuns(GroupResults(st, ds, column, scan).value)
    ensures CountsMatch(GroupResults(st, ds, column, scan).value, RowValues(Selected(scan, ds.uuid, column), ds.uuid))
  {
    var vals := RowValues(Selected(scan, ds.uuid, column), ds.uuid);
    SortedIsGrouped(vals);
    RunLengthCounts(vals);
  }

  /** No entry occurs twice in a scan. */
  predicate Distinct(scan: seq<Key>) {
    forall i, j :: 0 <= i < j < |scan| ==> scan[i] != scan[j]
  }

  /** A scan without repeats has as many entries as the set of entries it visits. */
  lemma {:induction false} DistinctCard(scan: seq<Key>)
    requires Distinct(scan)
    ensures |(set k | k in scan)| == |scan|
    decreases |scan|
  {
    if |scan| > 0 {
      var tail := scan[1..];
      assert Distinct(tail) by {
        forall i, j | 0 <= i < j < |tail|
          ensures tail[i] != tail[j]
        {
          assert tail[i] == scan[i + 1] && tail[j] == scan[j + 1];
        }
      }
      DistinctCard(tail);
      assert scan[0] !in tail by {
        forall j | 0 <= j < |tail|
          ensures tail[j] != scan[0]
        {
          assert tail[j] == scan[j + 1];
        }
      }
      assert (set k | k in scan) == (set k | k in tail) + {scan[0]};
    }
  }

  /** The scan visits each stored entry of the column under the prefix exactly once. */
  predicate CoversColumn(st: Store, ds: Dataset, column: Column, scan: seq<Key>) {
    Distinct(scan) && (set k | k in scan) == Scan(st.data, ds.uuid, column.name)
  }

  /** A covering scan is its own selection, with one row value per stored entry. */
  lemma CoveringScanSelected(st: Store, ds: Dataset, column: Column, scan: seq<Key>)
    requires CoversColumn(st, ds, column, scan)
    ensures Selected(scan, ds.uuid, column) == scan
    ensures |scan| == |Scan(st.data, ds.uuid, column.name)|
  {
    assert forall k :: k in scan ==> k in Scan(st.data, ds.uuid, column.name);
    SelectedKeepsAll(scan, ds.uuid, column);
    DistinctCard(scan);
  }

  /** The groups of a scan's row values are exactly the row values of the entries it visits. */
  lemma RunLengthOfRows(scan: seq<Key>, uuid: string, entries: set<Key>)
    requires (set k | k in scan) == entries
    ensures var r := RunLength(RowValues(scan, uuid));
            && Total(r) == |scan|
            && (forall i :: 0 <= i < |r| ==> exists k :: k in entries && RowValue(uuid, k.row) == r[i].value)
            && (forall k :: k in entries ==> exists i :: 0 <= i < |r| && r[i].value == RowValue(uuid, k.row))
  {
    var vals := RowValues(scan, uuid);
    var r := RunLength(vals);
    forall i | 0 <= i < |r|
      ensures exists k :: k in entries && RowValue(uuid, k.row) == r[i].value
    {
      assert r[i].value in vals;
      var j :| 0 <= j < |vals| && vals[j] == r[i].value;
      assert scan[j] in (set k | k in scan);
    }
    forall k | k in entries
      ensures exists i :: 0 <= i < |r| && r[i].value == RowValue(uuid, k.row)
    {
      assert k in (set k | k in scan);
      var j :| 0 <= j < |scan| && scan[j] == k;
      assert vals[j] == RowValue(uuid, k.row);
      assert RowValue(uuid, k.row) in vals;
    }
  }

  /**
   * When the server-side scan visits each stored entry of the column under
   * the dataset's prefix exactly once, `groupResults` counts exactly those
   * entries, and its groups are exactly their row values.
   */
  lemma GroupResultsCountStored(st: Store, ds: Dataset, column: Column, scan: seq<Key>)
    requires GetState(st.states, ds.uuid) in READABLE
    requires CoversColumn(st, ds, column, scan)
    ensures GroupResults(st, ds, column, scan).Ok?
    ensures var r := GroupResults(st, ds, column, scan).value;
            var stored := Scan(st.data, ds.uuid, column.name);
            && Total(r) == |stored|
            && (forall i :: 0 <= i < |r| ==> exists k :: k in stored && RowValue(ds.uuid, k.row) == r[i].value)
            && (forall k :: k in stored ==> exists i :: 0 <= i < |r| && r[i].value == RowValue(ds.uuid, k.row))
  {
    CoveringScanSelected(st, ds, column, scan);
    RunLengthOfRows(scan, ds.uuid, Scan(st.data, ds.uuid, column.name));
  }

  // The integration-test scenario: three documents, all in MD, two Blue and one Pink.
  const CV: string := ""
  const STATE: Column := Column("STATE")
  const COLOR: Column := Column("COLOR")
  const D1: Doc := Doc("1", CV, map[STATE := {SValue("MD", CV)}, COLOR := {SValue("Blue", CV)}])
  const D2: Doc := Doc("2", CV, map[STATE := {SValue("MD", CV)}, COLOR := {SValue("Pink", CV)}])
  const D3: Doc := Doc("3", CV, map[STATE := {SValue("MD", CV)}, COLOR := {SValue("Blue", CV)}])
  const SCENARIO_INDICES: set<Index> := {Index(STATE, Ascending), Index(COLOR, Ascending)}

  /** The scenario's index entries of one column, in row (value) order. */
  function ScenarioScan(c: Column, ser: Doc -> string): seq<Key> {
    if c == STATE then
      [IndexKey("u", D1, SValue("MD", CV), Index(STATE, Ascending), ser),
       IndexKey("u", D2, SValue("MD", CV), Index(STATE, Ascending), ser),
       IndexKey("u", D3, SValue("MD", CV), Index(STATE, Ascending), ser)]
    else
      [IndexKey("u", D1, SValue("Blue", CV), Index(COLOR, Ascending), ser),
       IndexKey("u", D3, SValue("Blue", CV), Index(COLOR, Ascending), ser),
       IndexKey("u", D2, SValue("Pink", CV), Index(COLOR, Ascending), ser)]
  }

  lemma ScenarioRows()
    ensures HasPrefix(Row("u", "MD"), "u") && RowValue("u", Row("u", "MD")) == "MD"
    ensures HasPrefix(Row("u", "Blue"), "u") && RowValue("u", Row("u", "Blue")) == "Blue"
    ensures HasPrefix(Row("u", "Pink"), "u") && RowValue("u", Row("u", "Pink")) == "Pink"
  {
    assert Row("u", "MD") == "u" + ([NUL] + "MD");
    assert Row("u", "Blue") == "u" + ([NUL] + "Blue");
    assert Row("u", "Pink") == "u" + ([NUL] + "Pink");
    PrefixOfConcat("u", [NUL] + "MD");
    PrefixOfConcat("u", [NUL] + "Blue");
    PrefixOfConcat("u", [NUL] + "Pink");
  }

  /** Each column's scan selects all of its entries and reads their values in order. */
  lemma ScenarioValues(c: Column, ser: Doc -> string)
    requires c == STATE || c == COLOR
    ensures Selected(ScenarioScan(c, ser), "u", c) == ScenarioScan(c, ser)
    ensures RowValues(ScenarioScan(c, ser), "u") ==
            (if c == STATE then ["MD", "MD", "MD"] else ["Blue", "Blue", "Pink"])
  {
    ScenarioSelectsAll(c, ser);
    if c == STATE {
      ScenarioRowValues(ScenarioScan(c, ser), "MD", "MD", "MD");
    } else {
      ScenarioRowValues(ScenarioScan(c, ser), "Blue", "Blue", "Pink");
    }
  }

  /** Three rows of dataset "u" read back as their three values. */
  lemma ScenarioRowValues(scan: seq<Key>, a: string, b: string, c: string)
    requires |scan| == 3 && scan[0].row == Row("u", a) && scan[1].row == Row("u", b) && scan[2].row == Row("u", c)
    ensures RowValues(scan, "u") == [a, b, c]
  {
    var vals := RowValues(scan, "u");
    assert vals[0] == a && vals[1] == b && vals[2] == c;
  }

  lemma ScenarioSelectsAll(c: Column, ser: Doc -> string)
    requires c == STATE || c == COLOR
    ensures Selected(ScenarioScan(c, ser), "u", c) == ScenarioScan(c, ser)
  {
    ScenarioRows();
    var scan := ScenarioScan(c, ser);
    assert forall k :: k in scan ==> HasPrefix(k.row, "u") && k.cf == c.name;
    SelectedKeepsAll(scan, "u", c);
  }

  lemma {:induction false} SelectedKeepsAll(scan: seq<Key>, uuid: string, c: Column)
    requires forall k :: k in scan ==> HasPrefix(k.row, uuid) && k.cf == c.name
    ensures Selected(scan, uuid, c) == scan
    decreases |scan|
  {
    if |scan| > 0 {
      assert forall k :: k in scan[1..] ==> k in scan;
      SelectedKeepsAll(scan[1..], uuid, c);
      assert scan == [scan[0]] + scan[1..];
    }
  }

  /** Every scanned entry of the scenario is one the insert wrote. */
  lemma ScenarioScanStored(c: Column, ser: Doc -> string)
    requires c == STATE || c == COLOR
    ensures forall k :: k in ScenarioScan(c, ser) ==> k in AddedKeys("u", SCENARIO_INDICES, [D3, D2, D1], ser)
  {
    var docs := [D3, D2, D1];
    forall i, ix, v | 0 <= i < 3 && ix in SCENARIO_INDICES && ix.column in docs[i].values && v in docs[i].values[ix.column]
      ensures IndexKey("u", docs[i], v, ix, ser) in AddedKeys("u", SCENARIO_INDICES, docs, ser)
    {
      AddedKeysMembership("u", SCENARIO_INDICES, docs, ser, IndexKey("u", docs[i], v, ix, ser));
    }
    assert docs[0] == D3 && docs[1] == D2 && docs[2] == D1;
  }

  /** An index entry of a scenario document in the family of `c` is one of `c`'s scanned entries. */
  lemma ScenarioIndexKey(d: Doc, c: Column, ser: Doc -> string, k: Key)
    requires d == D1 || d == D2 || d == D3
    requires c == STATE || c == COLOR
    requires k in IndexKeys("u", d, SCENARIO_INDICES, ser) && k.cf == c.name
    ensures k in ScenarioScan(c, ser)
  {
    var ix, v :| ix in SCENARIO_INDICES && ix.column in d.values.Keys && ix.column in d.values
      && v in d.values[ix.column] && k == IndexKey("u", d, v, ix, ser);
    assert ix == Index(c, Ascending);
  }

  /** The scenario's scans visit exactly the stored entries of their column. */
  lemma ScenarioScanExact(c: Column, ser: Doc -> string)
    requires c == STATE || c == COLOR
    ensures (set k | k in ScenarioScan(c, ser)) == Scan(AddedKeys("u", SCENARIO_INDICES, [D3, D2, D1], ser), "u", c.name)
  {
    var docs := [D3, D2, D1];
    var stored := Scan(AddedKeys("u", SCENARIO_INDICES, docs, ser), "u", c.name);
    ScenarioScanStored(c, ser);
    ScenarioRows();
    assert forall k :: k in ScenarioScan(c, ser) ==> HasPrefix(k.row, "u") && k.cf == c.name;
    forall k | k in stored
      ensures k in ScenarioScan(c, ser)
    {
      AddedKeysMembership("u", SCENARIO_INDICES, docs, ser, k);
      var i :| 0 <= i < |docs| && k in DocKeys("u", SCENARIO_INDICES, docs[i], ser);
      assert k.cf != DOCID_FIELD;
      assert k in IndexKeys("u", docs[i], SCENARIO_INDICES, ser);
      ScenarioIndexKey(docs[i], c, ser, k);
    }
  }

  /** The scenario's scans visit no entry twice. */
  lemma ScenarioScanDistinct(c: Column, ser: Doc -> string)
    requires c == STATE || c == COLOR
    ensures Distinct(ScenarioScan(c, ser))
  {
    QualifierInjective(FORWARD, "1", FORWARD, "2");
    QualifierInjective(FORWARD, "1", FORWARD, "3");
    QualifierInjective(FORWARD, "2", FORWARD, "3");
  }

  /** The data table's order on entries of one family: by row, then by qualifier. */
  predicate KeyLt(a: Key, b: Key) {
    LexLt(a.row, b.row) || (a.row == b.row && LexLt(a.cq, b.cq))
  }

  /** The scenario's scans list their entries in the table's key order. */
  lemma ScenarioScanInKeyOrder(c: Column, ser: Doc -> string)
    requires c == STATE || c == COLOR
    ensures forall i, j :: 0 <= i < j < |ScenarioScan(c, ser)| ==> KeyLt(ScenarioScan(c, ser)[i], ScenarioScan(c, ser)[j])
  {
    LexLtCommonPrefix(FORWARD + [NUL], "1", "2");
    LexLtCommonPrefix(FORWARD + [NUL], "2", "3");
    LexLtCommonPrefix(FORWARD + [NUL], "1", "3");
    LexLtCommonPrefix("u" + [NUL], "Blue", "Pink");
    assert LexLt("1", "2") && LexLt("2", "3") && LexLt("1", "3") && LexLt("Blue", "Pink");
  }

  lemma StateRuns()
    ensures RunLength(["MD", "MD", "MD"]) == [Group("MD", 3)]
  {
    assert ["MD", "MD", "MD"][1..] == ["MD", "MD"];
    assert ["MD", "MD"][1..] == ["MD"];
    assert ["MD"][1..] == [];
  }

  lemma ColorRuns()
    ensures RunLength(["Blue", "Blue", "Pink"]) == [Group("Blue", 2), Group("Pink", 1)]
  {
    assert ["Blue", "Blue", "Pink"][1..] == ["Blue", "Pink"];
    assert ["Blue", "Pink"][1..] == ["Pink"];
    assert ["Pink"][1..] == [];
  }

  /** Over any store holding the dataset in LOADING, the scenario's scans group as the test expects. */
  lemma ScenarioGroups(st: Store, ser: Doc -> string)
    requires GetState(st.states, "u") == Loading
    ensures GroupResults(st, Dataset("u", SCENARIO_INDICES, true), STATE, ScenarioScan(STATE, ser)) == Ok([Group("MD", 3)])
    ensures GroupResults(st, Dataset("u", SCENARIO_INDICES, true), COLOR, ScenarioScan(COLOR, ser)) == Ok([Group("Blue", 2), Group("Pink", 1)])
  {
    ScenarioValues(STATE, ser);
    ScenarioValues(COLOR, ser);
    StateRuns();
    ColorRuns();
  }

  /**
   * The group-by scenario of the integration test: after inserting the
   * three documents, the scans that visit each stored STATE and COLOR
   * entry once group to {MD: 3} and {Blue: 2, Pink: 1}.
   */
  lemma GroupByScenario(ser: Doc -> string)
    ensures var o := AddResults(Store(map["u" := Loading], {}, map[]), Dataset("u", SCENARIO_INDICES, true),
                                [D3, D2, D1], [true], ser);
            && CoversColumn(o.store, o.ds, STATE, ScenarioScan(STATE, ser))
            && CoversColumn(o.store, o.ds, COLOR, ScenarioScan(COLOR, ser))
            && GroupResults(o.store, o.ds, STATE, ScenarioScan(STATE, ser)) == Ok([Group("MD", 3)])
            && GroupResults(o.store, o.ds, COLOR, ScenarioScan(COLOR, ser)) == Ok([Group("Blue", 2), Group("Pink", 1)])
  {
    var o := AddResults(Store(map["u" := Loading], {}, map[]), Dataset("u", SCENARIO_INDICES, true),
                        [D3, D2, D1], [true], ser);
    assert o.store.data == AddedKeys("u", SCENARIO_INDICES, [D3, D2, D1], ser);
    ScenarioScanExact(STATE, ser);
    ScenarioScanExact(COLOR, ser);
    ScenarioScanDistinct(STATE, ser);
    ScenarioScanDistinct(COLOR, ser);
    ScenarioGroups(o.store, ser);
  }
}

=== FILE: results.dfy ===
/** Failure-carrying values: the model's stand-in for Java's nulls and exceptions. */
module Results {

  /** An optional value; `None` stands for a Java `null` or a missing entry. */
  datatype Option<+T> = None | Some(value: T)

  /** Either a value or the error an operation throws. */
  datatype Result<+T, +E> = Ok(value: T) | Err(error: E)
}

=== FILE: sorting.dfy ===
/**
 * The public operations of `SortingImpl` over an abstract store: the
 * lifecycle states and column-presence entries of the metadata table, and
 * the data table as a set of keys. Every operation first checks the
 * dataset's state, then performs a single transition or throws.
 */
module Sorting {
  import opened Results
  import opened Model
  import opened Strings
  import opened Lifecycle
  import opened IndexHelper
  import opened Encoding
  import opened KVToMultimap
  import opened LockRetry
  import opened GroupBy

  /** Metadata states, data table, and the columns seen per dataset. */
  datatype Store = Store(states: States, data: set<Key>, columns: map<string, set<Column>>)

  /**
   * The effect of a mutating call: the store and descriptor afterwards, and
   * the exception it threw, if any (a throw may follow side effects).
   */
  datatype Outcome = Outcome(store: Store, ds: Dataset, thrown: Option<Error>)

  /** The columns recorded as present for a dataset. */
  function PresentColumns(st: Store, uuid: string): set<Column> {
    if uuid in st.columns then st.columns[uuid] else {}
  }

  /** The entries a scan over `Range.prefix(uuid)` restricted to family `cf` returns. */
  function Scan(data: set<Key>, uuid: string, cf: string): set<Key> {
    set k | k in data && HasPrefix(k.row, uuid) && k.cf == cf
  }

  /** `register`: UNKNOWN becomes LOADING. */
  function Register(st: Store, ds: Dataset): (o: Outcome)
    ensures o.ds == ds && o.store.data == st.data && o.store.columns == st.columns
    ensures o.thrown.None? <==> GetState(st.states, ds.uuid) == Unknown
    ensures o.thrown.None? ==> GetState(o.store.states, ds.uuid) == Loading
    ensures o.thrown.Some? ==> o.store == st && o.thrown.value == UnexpectedState({Unknown}, GetState(st.states, ds.uuid))
    ensures forall u :: u != ds.uuid ==> GetState(o.store.states, u) == GetState(st.states, u)
  {
    match Guard(st.states, ds.uuid, {Unknown})
    case Some(e) => Outcome(st, ds, Some(e))
    case None => Outcome(st.(states := st.states[ds.uuid := Loading]), ds, None)
  }

  /** `finalize`: LOADING becomes LOADED. */
  function Finalize(st: Store, ds: Dataset): (o: Outcome)
    ensures o.ds == ds && o.store.data == st.data && o.store.columns == st.columns
    ensures o.thrown.None? <==> GetState(st.states, ds.uuid) == Loading
    ensures o.thrown.None? ==> GetState(o.store.states, ds.uuid) == Loaded
    ensures o.thrown.Some? ==> o.store == st && o.thrown.value == UnexpectedState({Loading}, GetState(st.states, ds.uuid))
    ensures forall u :: u != ds.uuid ==> GetState(o.store.states, u) == GetState(st.states, u)
  {
    match Guard(st.states, ds.uuid, {Loading})
    case Some(e) => Outcome(st, ds, Some(e))
    case None => Outcome(st.(states := st.states[ds.uuid := Loaded]), ds, None)
  }

  /**
   * `addResults`: accepted only in LOADING. The insert runs once the lock is
   * held (or at once without `lockOnUpdates`); after three failed acquires
   * the call returns without writing anything.
   */
  function AddResults(st: Store, ds: Dataset, docs: seq<Doc>, outcomes: seq<bool>, ser: Doc -> string): (o: Outcome)
    ensures o.ds == ds && o.store.states == st.states
    ensures o.thrown.None? <==> GetState(st.states, ds.uuid) == Loading
    ensures o.thrown.Some? ==> o.thrown.value == UnexpectedState({Loading}, GetState(st.states, ds.uuid))
    ensures o.thrown.Some? || !Run(ds.lockOnUpdates, outcomes).ran ==> o.store == st
    ensures o.thrown.None? && Run(ds.lockOnUpdates, outcomes).ran ==>
              o.store.data == st.data + AddedKeys(ds.uuid, ds.indices, docs, ser)
              && PresentColumns(o.store, ds.uuid) == PresentColumns(st, ds.uuid) + ColumnsIn(docs)
    ensures forall u :: u != ds.uuid ==> PresentColumns(o.store, u) == PresentColumns(st, u)
  {
    match Guard(st.states, ds.uuid, {Loading})
    case Some(e) => Outcome(st, ds, Some(e))
    case None =>
      if !Run(ds.lockOnUpdates, outcomes).ran then Outcome(st, ds, None)
      else
        var st' := st.(data := st.data + AddedKeys(ds.uuid, ds.indices, docs, ser),
                       columns := st.columns[ds.uuid := PresentColumns(st, ds.uuid) + ColumnsIn(docs)]);
        Outcome(st', ds, None)
  }

  /** The documents stored for a dataset, read back with the deserialiser `de`. */
  function StoredDocs(data: set<Key>, uuid: string, de: string -> Doc): set<Doc> {
    set k | k in Scan(data, uuid, DOCID_FIELD) :: de(k.value)
  }

  /**
   * `index`, as intended: accepted in LOADING or LOADED; once the lock is
   * held (or without `lockOnUpdates`) the requested Indexes join the
   * descriptor and every stored document gains its index entries for them.
   * Failing to get the lock throws and changes nothing.
   */
  function IndexDataset(st: Store, ds: Dataset, req: set<Index>, outcomes: seq<bool>,
                 ser: Doc -> string, de: string -> Doc): (o: Outcome)
    ensures o.store.states == st.states && o.store.columns == st.columns
    ensures o.thrown.None? <==> GetState(st.states, ds.uuid) in READABLE && Run(ds.lockOnUpdates, outcomes).ran
    ensures GetState(st.states, ds.uuid) !in READABLE ==>
              o == Outcome(st, ds, Some(UnexpectedState(READABLE, GetState(st.states, ds.uuid))))
    ensures o.thrown.Some? ==> o.store == st && o.ds == ds
    ensures GetState(st.states, ds.uuid) in READABLE && !Run(ds.lockOnUpdates, outcomes).ran ==>
              o.thrown == Some(LockNotAcquired(MAX_ATTEMPTS + 1))
    ensures o.thrown.None? ==> o.ds == ds.(indices := ds.indices + req)
                               && o.store.data == st.data + ReindexKeys(ds.uuid, StoredDocs(st.data, ds.uuid, de), req, ser)
  {
    match Guard(st.states, ds.uuid, READABLE)
    case Some(e) => Outcome(st, ds, Some(e))
    case None =>
      var run := Run(ds.lockOnUpdates, outcomes);
      if !run.ran then Outcome(st, ds, Some(LockNotAcquired(run.count)))
      else
        var docs := StoredDocs(st.data, ds.uuid, de);
        Outcome(st.(data := st.data + ReindexKeys(ds.uuid, docs, req, ser)), ds.(indices := ds.indices + req), None)
  }

  /** Decode every scanned entry with `KVToMultimap`; some malformed entry aborts the scan. */
  ghost function DecodeAll(keys: set<Key>): (r: Result<set<Doc>, Error>)
    ensures r.Err? <==> exists k :: k in keys && NUL !in k.cq
    ensures r.Err? ==> exists k :: k in keys && NUL !in k.cq && r.error == MissingSeparator(k)
    ensures r.Ok? ==> forall k :: k in keys ==> Apply(k).Ok? && Apply(k).value in r.value
    ensures r.Ok? ==> forall d :: d in r.value ==> exists k :: k in keys && Apply(k) == Ok(d)
  {
    if exists k :: k in keys && NUL !in k.cq then
      var k :| k in keys && NUL !in k.cq;
      Err(MissingSeparator(k))
    else
      Ok(set k | k in keys :: Apply(k).value)
  }

  /**
   * `index` as the code is written: the documents it re-indexes are the
   * `KVToMultimap` placeholders (only an `ATALL` column), and without
   * `lockOnUpdates` it re-indexes and then throws the lock error anyway.
   */
  ghost function IndexDatasetAsWritten(st: Store, ds: Dataset, req: set<Index>, outcomes: seq<bool>,
                                ser: Doc -> string): (o: Outcome)
    ensures o.store.states == st.states && o.store.columns == st.columns
    ensures GetState(st.states, ds.uuid) !in READABLE ==>
              o == Outcome(st, ds, Some(UnexpectedState(READABLE, GetState(st.states, ds.uuid))))
    ensures o.thrown.None? ==> ds.lockOnUpdates
    ensures o.ds != ds ==> o.ds == ds.(indices := ds.indices + req) && Run(ds.lockOnUpdates, outcomes).ran
  {
    match Guard(st.states, ds.uuid, READABLE)
    case Some(e) => Outcome(st, ds, Some(e))
    case None =>
      var run := Run(ds.lockOnUpdates, outcomes);
      if !run.ran then Outcome(st, ds, Some(LockNotAcquired(run.count)))
      else
        var ds' := ds.(indices := ds.indices + req);
        match DecodeAll(Scan(st.data, ds.uuid, DOCID_FIELD))
        case Err(e) => Outcome(st, ds', Some(e))
        case Ok(docs) =>
          var st' := st.(data := st.data + ReindexKeys(ds.uuid, docs, req, ser));
          if ds.lockOnUpdates then Outcome(st', ds', None)
          else Outcome(st', ds', Some(LockNotAcquired(run.count)))
  }

  /** `columns`: the columns seen so far, in LOADING or LOADED. */
  function Columns(st: Store, ds: Dataset): (r: Result<set<Column>, Error>)
    ensures r.Ok? <==> GetState(st.states, ds.uuid) in READABLE
    ensures r.Err? ==> r.error == UnexpectedState(READABLE, GetState(st.states, ds.uuid))
    ensures r.Ok? ==> r.value == PresentColumns(st, ds.uuid)
  {
    match Guard(st.states, ds.uuid, READABLE)
    case Some(e) => Err(e)
    case None => Ok(PresentColumns(st, ds.uuid))
  }

  /** `fetch(id)`: the primary entries under the dataset's row prefix. */
  function Fetch(st: Store, ds: Dataset): (r: Result<set<Key>, Error>)
    ensures r.Ok? <==> GetState(st.states, ds.uuid) in READABLE
    ensures r.Err? ==> r.error == UnexpectedState(READABLE, GetState(st.states, ds.uuid))
    ensures r.Ok? ==> forall k :: k in r.value <==> k in st.data && k.cf == DOCID_FIELD && HasPrefix(k.row, ds.uuid)
  {
    match Guard(st.states, ds.uuid, READABLE)
    case Some(e) => Err(e)
    case None => Ok(Scan(st.data, ds.uuid, DOCID_FIELD))
  }

  /** `fetch(id, column, value)`: the single row `uuid \0 value`, family `column`. */
  function FetchByValue(st: Store, ds: Dataset, column: Column, value: string): (r: Result<set<Key>, Error>)
    ensures r.Ok? <==> GetState(st.states, ds.uuid) in READABLE
    ensures r.Err? ==> r.error == UnexpectedState(READABLE, GetState(st.states, ds.uuid))
    ensures r.Ok? ==> forall k :: k in r.value <==> k in st.data && k.row == Row(ds.uuid, value) && k.cf == column.name
  {
    match Guard(st.states, ds.uuid, READABLE)
    case Some(e) => Err(e)
    case None => Ok(set k | k in st.data && k.row == Row(ds.uuid, value) && k.cf == column.name)
  }

  /** What an index fetch iterates: the selected entries and whether repeated docIds are dropped. */
  datatype IndexScan = IndexScan(keys: set<Key>, dedup: bool)

  /**
   * `fetch(id, ordering, duplicateUidsAllowed)`: only for an Index the
   * descriptor holds; scans the dataset's prefix in the Index's column
   * family (the direction is not consulted).
   */
  function FetchIndex(st: Store, ds: Dataset, ordering: Index, duplicateUidsAllowed: bool): (r: Result<IndexScan, Error>)
    ensures GetState(st.states, ds.uuid) !in READABLE ==> r == Err(UnexpectedState(READABLE, GetState(st.states, ds.uuid)))
    ensures GetState(st.states, ds.uuid) in READABLE ==> (r.Ok? <==> ordering in ds.indices)
    ensures GetState(st.states, ds.uuid) in READABLE && ordering !in ds.indices ==> r == Err(UnindexedColumn(ordering))
    ensures r.Ok? ==> r.value.dedup == !duplicateUidsAllowed
    ensures r.Ok? ==> forall k :: k in r.value.keys <==> k in st.data && HasPrefix(k.row, ds.uuid) && k.cf == ordering.column.name
  {
    match Guard(st.states, ds.uuid, READABLE)
    case Some(e) => Err(e)
    case None =>
      if ordering !in ds.indices then Err(UnindexedColumn(ordering))
      else Ok(IndexScan(Scan(st.data, ds.uuid, ordering.column.name), !duplicateUidsAllowed))
  }

  /** `fetch(id, ordering)`: the overload that keeps duplicates. */
  function FetchIndexDefault(st: Store, ds: Dataset, ordering: Index): (r: Result<IndexScan, Error>)
    ensures GetState(st.states, ds.uuid) !in READABLE ==> r == Err(UnexpectedState(READABLE, GetState(st.states, ds.uuid)))
    ensures GetState(st.states, ds.uuid) in READABLE && ordering !in ds.indices ==> r == Err(UnindexedColumn(ordering))
    ensures r.Ok? <==> GetState(st.states, ds.uuid) in READABLE && ordering in ds.indices
    ensures r.Ok? ==> !r.value.dedup
    ensures r.Ok? ==> forall k :: k in r.value.keys <==> k in st.data && HasPrefix(k.row, ds.uuid) && k.cf == ordering.column.name
  {
    FetchIndex(st, ds, ordering, true)
  }

  /** The value an index row holds: what follows `uuid \0`. */
  function RowValue(uuid: string, row: string): string {
    if |row| > |uuid| then row[|uuid| + 1..] else ""
  }

  /** `r` is `s` with some elements dropped, the rest kept in order. */
  predicate Subsequence<T(==)>(r: seq<T>, s: seq<T>)
    decreases |s|
  {
    |r| == 0 || (|s| > 0 && ((r[0] == s[0] && Subsequence(r[1..], s[1..])) || Subsequence(r, s[1..])))
  }

  /** The entries of `scan` the group-by range and family select, in scan order. */
  function Selected(scan: seq<Key>, uuid: string, column: Column): (r: seq<Key>)
    ensures forall k :: k in r <==> k in scan && HasPrefix(k.row, uuid) && k.cf == column.name
    ensures forall k :: multiset(r)[k] == if HasPrefix(k.row, uuid) && k.cf == column.name then multiset(scan)[k] else 0
    ensures Subsequence(r, scan)
    ensures |r| <= |scan|
  {
    if |scan| == 0 then []
    else
      var rest := Selected(scan[1..], uuid, column);
      var k := scan[0];
      assert scan == [k] + scan[1..];
      assert forall x :: x in scan <==> x == k || x in scan[1..];
      if HasPrefix(k.row, uuid) && k.cf == column.name then
        assert ([k] + rest)[1..] == rest;
        [k] + rest
      else rest
  }

  /** The row values of a sequence of index entries. */
  function RowValues(keys: seq<Key>, uuid: string): (r: seq<string>)
    ensures |r| == |keys|
    ensures forall i :: 0 <= i < |keys| ==> r[i] == RowValue(uuid, keys[i].row)
  {
    if |keys| == 0 then [] else [RowValue(uuid, keys[0].row)] + RowValues(keys[1..], uuid)
  }

  /**
   * `groupResults(id, column)`: accepted in LOADING or LOADED, whether or
   * not `column` is indexed; the scan (in the order the server-side counter
   * sees it) is folded into (value, count) runs.
   */
  function GroupResults(st: Store, ds: Dataset, column: Column, scan: seq<Key>): (r: Result<seq<Group>, Error>)
    ensures r.Ok? <==> GetState(st.states, ds.uuid) in READABLE
    ensures r.Err? ==> r.error == UnexpectedState(READABLE, GetState(st.states, ds.uuid))
    ensures r.Ok? ==> Total(r.value) == |Selected(scan, ds.uuid, column)|
    ensures r.Ok? ==> forall i :: 0 <= i < |r.value| ==> r.value[i].count > 0
  {
    match Guard(st.states, ds.uuid, READABLE)
    case Some(e) => Err(e)
    case None => Ok(RunLength(RowValues(Selected(scan, ds.uuid, column), ds.uuid)))
  }

  /** A delete's two metadata writes: the DELETING mark, then the final store. */
  datatype Deletion = Deletion(marked: States, outcome: Outcome)

  /**
   * `delete`: accepted in LOADING or LOADED; marks the dataset DELETING,
   * deletes every data-table row with the dataset's prefix, then removes
   * its metadata.
   */
  function Delete(st: Store, ds: Dataset): (r: Deletion)
    ensures r.outcome.ds == ds
    ensures r.outcome.thrown.None? <==> GetState(st.states, ds.uuid) in READABLE
    ensures r.outcome.thrown.Some? ==>
              && r.outcome.store == st && r.marked == st.states
              && r.outcome.thrown.value == UnexpectedState(READABLE, GetState(st.states, ds.uuid))
    ensures r.outcome.thrown.None? ==> GetState(r.marked, ds.uuid) == Deleting
    ensures GetState(r.outcome.store.states, ds.uuid) == (if r.outcome.thrown.None? then Unknown else GetState(st.states, ds.uuid))
    ensures forall u :: u != ds.uuid ==> GetState(r.outcome.store.states, u) == GetState(st.states, u)
    ensures forall k :: k in r.outcome.store.data <==> k in st.data && (r.outcome.thrown.Some? || !HasPrefix(k.row, ds.uuid))
    ensures r.outcome.thrown.None? ==> PresentColumns(r.outcome.store, ds.uuid) == {}
    ensures forall u :: u != ds.uuid ==> PresentColumns(r.outcome.store, u) == PresentColumns(st, u)
  {
    match Guard(st.states, ds.uuid, READABLE)
    case Some(e) => Deletion(st.states, Outcome(st, ds, Some(e)))
    case None =>
      var marked := st.states[ds.uuid := Deleting];
      var data := set k | k in st.data && !HasPrefix(k.row, ds.uuid);
      Deletion(marked, Outcome(Store(marked - {ds.uuid}, data, st.columns - {ds.uuid}), ds, None))
  }
}

=== FILE: strings.dfy ===
/**
 * String facts the key encoding relies on: prefixes, the first NUL of a
 * string, and the store's lexicographic order on rows.
 */
module Strings {
  import opened Results
  import opened Model

  /** `s` starts with `p` (what `Range.prefix(p)` selects). */
  predicate HasPrefix(s: string, p: string) {
    |p| <= |s| && s[..|p|] == p
  }

  /** Neither id is a prefix of the other. */
  predicate PrefixFree(a: string, b: string) {
    !HasPrefix(a, b) && !HasPrefix(b, a)
  }

  /** Index of the first NUL in `s`, or `None` when it has none (`Text.find`). */
  function FindNul(s: string): (r: Option<nat>)
    ensures r.None? <==> NUL !in s
    ensures r.Some? ==> r.value < |s| && s[r.value] == NUL && NUL !in s[..r.value]
  {
    if |s| == 0 then None
    else if s[0] == NUL then Some(0)
    else
      match FindNul(s[1..])
      case None => None
      case Some(j) =>
        assert s[..j + 1] == [s[0]] + s[1..][..j];
        Some(j + 1)
  }

  /** Strict lexicographic order on strings, character by character. */
  predicate LexLt(a: string, b: string)
    decreases |a|
  {
    |b| > 0 && (|a| == 0 || a[0] < b[0] || (a[0] == b[0] && LexLt(a[1..], b[1..])))
  }

  /** A shared prefix does not change how two strings compare. */
  lemma {:induction false} LexLtCommonPrefix(p: string, x: string, y: string)
    ensures LexLt(p + x, p + y) <==> LexLt(x, y)
    decreases |p|
  {
    if |p| > 0 {
      assert (p + x)[0] == p[0] == (p + y)[0];
      assert (p + x)[1..] == p[1..] + x;
      assert (p + y)[1..] == p[1..] + y;
      LexLtCommonPrefix(p[1..], x, y);
    } else {
      assert p + x == x;
      assert p + y == y;
    }
  }

  /** `p + x` has prefix `p`. */
  lemma PrefixOfConcat(p: string, x: string)
    ensures HasPrefix(p + x, p)
  {
    assert (p + x)[..|p|] == p;
  }

  /** A longer prefix implies the shorter one. */
  lemma PrefixWeaken(s: string, p: string, q: string)
    requires HasPrefix(s, p + q)
    ensures HasPrefix(s, p)
  {
    assert s[..|p|] == s[..|p + q|][..|p|];
  }

  /** `LexLt` never holds both ways, so in particular never of equal strings. */
  lemma {:induction false} LexLtAsymmetric(a: string, b: string)
    ensures !(LexLt(a, b) && LexLt(b, a))
    decreases |a|
  {
    if |a| > 0 && |b| > 0 && a[0] == b[0] {
      LexLtAsymmetric(a[1..], b[1..]);
    }
  }

  /**
   * Rows of two datasets whose ids are prefix-free never overlap: a row
   * `u2 \0 ...` is outside the range `Range.prefix(u1)`.
   */
  lemma PrefixIsolation(u1: string, u2: string, row: string)
    requires PrefixFree(u1, u2)
    requires HasPrefix(row, u2 + [NUL])
    ensures !HasPrefix(row, u1)
  {
    PrefixWeaken(row, u2, [NUL]);
    if |u1| <= |u2| {
      assert row[..|u1|] == u2[..|u1|];
    } else if |u1| <= |row| {
      assert row[..|u1|][..|u2|] == row[..|u2|];
    }
  }
}
